=== FILE: README.md ===
# mail.py: a Dafny model of the mail script's decision rules

`mail.py` sends one email by whichever transport is configured. It can use
OAuth2 against Gmail, an ISP relay, a credentialed SMTP server, or the local
`ssmtp` program. It also keeps an OAuth2 token file up to date and has a
configuration wizard. This project models the logic under that glue.

- `py.dfy` (`Py`): the Python values the script handles (`None`, booleans,
  integers, strings), their truthiness and their `%s` text. Configuration
  sections are maps from key to value.
- `keys.dfy` (`Keys`): `validateKeys`.
- `text.dfy` (`Text`): ASCII `strip`, `lower`, `split('\n')` and the ASCII
  test behind `encode('ascii')`.
- `timestamp.dfy` (`Timestamp`): the proleptic Gregorian calendar of
  `datetime` and the `%Y-%m-%d %H:%M:%S` text format written by
  `DateEncoder` and read back by `strptime`. Instants are microseconds
  since 0001-01-01 00:00:00, so the truncation to whole seconds is visible.
- `token.dfy` (`Token`): the token record `{refresh, access, expiry}`, the
  expiry test `expiry < now`, and the refresh update.
- `transport.dfy` (`Transport`): the `if/elif/elif/else` chain of
  `sendEmail`, with OAuth2 first, then the ISP relay, then smtplib, then ssmtp.
- `message.dfy` (`Message`): the test-mode override, the raw document handed
  to ssmtp, and the parts of the multipart message.
- `wizard.dfy` (`Wizard`): the nested `updateConfig` of `configureScript`.
- `send.dfy` (`Send`): `sendEmail` as a whole. Each call returns the route
  taken and the effects it performs, in order: provider calls, token file
  writes, SMTP commands, the scratch file and the ssmtp run. It also returns
  the exception that ended the call, if any.

The model does not read the clock, the token file or the network. The
current time, the token file's contents (or its absence), the provider's
refresh answer and the line typed at a wizard prompt are all parameters.
Whether `smtplib`, the `oauth2` module and `subprocess` imported is also a
parameter, and so are the parsed command-line options.

Three details of the code shape the model:
- OAuth2 is tried first, and only when `-i` does not force the relay
  (mail.py:216); forcing the relay selects it whether or not `relay` is set
  (mail.py:252).
- The OAuth2 session says EHLO once, before STARTTLS, and not again after
  it (mail.py:246-248).
- The ssmtp command takes its program path from the `path` key of the
  `ssmtp` section (mail.py:281).

## Model

| member | source | states |
|---|---|---|
| Keys.ValidateKeys | mail.py:183-190 | the verdict is true exactly when every listed key is present and its value is not `None` |
| Keys.ValidateKeysLoop | mail.py:186-190 | the accumulating `result = result and ...` loop computes that same verdict |
| Keys.EmptyKeyListValid | mail.py:183-190 | an empty key list is vacuously valid |
| Keys.MoreKeysNeverHelp | mail.py:183-190 | a concatenated key list validates exactly when both parts do, so adding keys never turns false into true |
| Keys.OnlyKeySetMatters | mail.py:183-190 | order and repetition of the key list make no difference |
| Keys.NoneValueRejects | mail.py:189 | one listed key holding `None` makes the section unusable |
| Transport.SelectIsFirstViable | mail.py:215-269 | the chain picks the first transport, in the order OAuth2, relay, smtplib, ssmtp, whose own prerequisite holds, so exactly one transport is always picked |
| Transport.Select | mail.py:216-269 | the picked transport's own prerequisite holds and none of the transports ahead of it in the order OAuth2, relay, smtplib, ssmtp has its prerequisite |
| Transport.OAuth2Condition | mail.py:201-216 | OAuth2 is picked exactly when ISP is not forced, oauth2 imported, `client_id` and `client_secret` are set and the token file exists |
| Transport.ForcedIspPicksRelay | mail.py:201-252 | forcing the relay suppresses OAuth2 and always picks the relay |
| Transport.IspRelayCondition | mail.py:252 | the relay is picked exactly when OAuth2 is not viable and either ISP is forced or `relay` is set |
| Transport.SmtplibCondition | mail.py:257 | smtplib is picked exactly when neither earlier branch applies, smtplib imported, and `server` and `port` are set |
| Transport.SsmtpIsFallback | mail.py:269 | ssmtp is picked exactly when no other transport is viable |
| Transport.RelayIgnoresSmtp | mail.py:252-257 | with a usable relay and OAuth2 not viable, the smtp section and the smtplib import do not affect the choice |
| Message.ApplyTestMode | mail.py:204-206 | in test mode the subject becomes `Test Email` and the text body `This is a test email.`; the recipient and the HTML body are kept; otherwise nothing changes |
| Message.TestModeIgnoresContent | mail.py:204-206 | in test mode the caller's subject and text body make no difference |
| Message.TestModeIdempotent | mail.py:204-206 | applying the override twice equals applying it once |
| Message.SsmtpDocumentLayout | mail.py:273 | split at `\n`, the document is the six header lines in order, one empty line, then the lines of the body |
| Message.SsmtpScenario | mail.py:273 | recipient `a@example.com`, subject `Hi` and body `Hello` give the lines `To: <a@example.com>`, `Subject: Hi`, an empty line, and `Hello` |
| Message.DocumentAscii | mail.py:273-274 | `encode('ascii')` accepts the document exactly when every value printed into it is ASCII |
| Message.Parts | mail.py:299-305 | the text part is attached first as `plain` and the HTML part last as `html`, each only when it is not `None` |
| Message.Assemble | mail.py:293-305 | `From` is `sender-name <sender>` and `Reply-To` is `reply-to-name <reply-to>`, each value as `%s` prints it; the recipient and subject are kept as given; the parts are exactly the text and HTML parts that are present |
| Token.Load | mail.py:218-221 | loading fails exactly when the stored expiry does not parse; otherwise both tokens are kept and the expiry is a whole-second instant |
| Token.Persist | mail.py:117-122 | writing fails exactly when the expiry's year is before 1900; otherwise both tokens are kept |
| Token.Refresh | mail.py:224-230 | an unexpired record, including one whose expiry equals `now`, is unchanged; an expired one keeps its refresh token, takes the new access token and gets an expiry exactly `expires_in` seconds after `now`, later than `now` when `expires_in` is positive |
| Token.PersistThenLoad | mail.py:220-234 | writing a record and reading it back loses only the microseconds of its expiry |
| Token.EnsureFresh | mail.py:218-236 | an unreadable expiry fails the step; when the step succeeds the file is rewritten exactly when the loaded expiry lies before `now`; without a rewrite the stored access token is used; after one the provider's new access token is used and the written record keeps the refresh token |
| Token.RewriteExactlyWhenExpired | mail.py:224-236 | with a readable file, the token file is rewritten if and only if the stored expiry lies before `now` and the step succeeds; an expired record fails only when `now + expires_in` leaves the `datetime` range or falls before 1900; an unexpired one is used as is and nothing is written |
| Token.RefreshedRecord | mail.py:224-236 | a rewritten file reads back as exactly the record with the old refresh token, the new access token and expiry `now + expires_in` truncated to the second, which lies after `now` and after the old expiry when `expires_in` is positive |
| Token.SecondSendDoesNotRewrite | mail.py:224-236 | a record just refreshed with a positive `expires_in` is not refreshed again at the same `now` |
| Timestamp.Parse | mail.py:220 | `strptime` succeeds exactly when the text has the zero-padded `%Y-%m-%d %H:%M:%S` shape and names a real date and time; the instant is then a whole second inside the `datetime` range whose calendar fields are the ones written |
| Timestamp.FormatThenParse | mail.py:117-122 | formatting an instant and parsing the text gives the instant truncated to whole seconds |
| Timestamp.ParseThenFormat | mail.py:218-221 | a parsed text with year 1900 or later formats back to the same text |
| Timestamp.Format | mail.py:121 | formatting fails exactly for years before 1900, and otherwise yields 19 characters |
| Timestamp.AddSeconds | mail.py:229 | adding `expires_in` seconds succeeds exactly when the result stays within the `datetime` range |
| Timestamp.DateTimeRoundTrip | mail.py:220 | a calendar date and time maps to an instant and back unchanged |
| Timestamp.InstantRoundTrip | mail.py:121 | an instant maps to its calendar fields and back, truncated to whole seconds |
| Text.Strip | mail.py:401 | the result is a slice of the input with only white space cut from either end, with no white space at its ends, and empty exactly for blank input |
| Text.StripIdempotent | mail.py:401 | stripping twice equals stripping once |
| Text.StripKeeps | mail.py:401 | stripping keeps every character that is not white space, so `y` and `Y` survive it |
| Text.YesTest | mail.py:405 | `'y' in r.lower()` holds exactly when the text contains `y` or `Y` |
| Wizard.PromptDefault | mail.py:381-396 | the prompt shows the existing value, or the system default for a missing key, or `No default available` for `None`; boolean fields show `Yes` or `No` by truthiness |
| Wizard.UpdateConfig | mail.py:378-407 | a missing key is first set to the system default; a blank answer keeps the value; otherwise a boolean field stores whether the answer contains `y` or `Y` and a text field stores the stripped answer; no other key changes |
| Wizard.StoredTextIsStripped | mail.py:401-407 | a typed text value is non-empty with no surrounding white space |
| Wizard.BlankRerunKeeps | mail.py:382-407 | pressing Enter on a later run keeps what the earlier run stored |
| Wizard.RepeatedAnswerIdempotent | mail.py:378-407 | giving the same answer twice stores the same as once |
| Send.TokenStep | mail.py:218-236 | the provider is called exactly when the loaded token has expired, first and with the configured client id and secret and the stored refresh token; a successful refresh writes the token file once and yields the new access token; an answer lacking `access_token` or `expires_in` ends the step after the provider call alone; an unexpired token yields the stored access token with no effect; an unreadable expiry is an error |
| Send.AnswerReadOnlyWhenDue | mail.py:225-236 | when no refresh is due, the provider's answer does not affect the token step |
| Send.RejectedRefreshTrace | mail.py:226-229 | an answer lacking `access_token` (read first) or `expires_in` raises the KeyError for that key right after the provider call; the token file is not written |
| Send.TokenStepCounts | mail.py:218-236 | for any answer, one provider call exactly when the token is due, at most one token write and only then, one write after every successful refresh, no AUTH |
| Send.TokenStepAgrees | mail.py:218-236 | the token step of `sendEmail` writes the file exactly when the refresh rule rewrites it, with the same record, returns the same access token, and calls the provider once exactly when the stored token has expired |
| Send.IspBranch | mail.py:252-253 | the relay branch fails on a missing `smtplib` before reading `relay`, fails on a missing `relay` before connecting, and otherwise connects to the relay's value and delivers without authenticating (a `None` relay is recorded as a connection too; see Left out) |
| Send.SmtpBranch | mail.py:257-266 | the smtplib branch emits only plain SMTP commands, opening with the connect and login session; a failed session ends it with that error; otherwise the delivery of the message follows and its outcome is the branch's |
| Send.SsmtpBranch | mail.py:269-290 | a missing `sender`, `reply-to-name` or `reply-to` fails with no effect; a document that is not ASCII fails with `NotAscii` before anything is written; otherwise the document built from the recipient, the user fields, the subject and the text body is written first; without an ssmtp path the branch stops with an error after that write; with one it returns without error, having run ssmtp for the recipient and removed the file when `subprocess` is bound, or hit the caught failure when it is not |
| Send.WriteAndRun | mail.py:277-290 | the document is written to the scratch file first; a missing `ssmtp` section or `path` key ends the branch with an error after that write; otherwise the call returns without error after running ssmtp at that path for the recipient and removing the file, or, when `subprocess` is unbound, after the caught failure |
| Send.SmtpSession | mail.py:259-265 | the smtplib session connects and says EHLO, then sends STARTTLS and a second EHLO exactly when `starttls` is truthy, then always logs in with the configured credentials |
| Send.OAuthBranch | mail.py:216-249 | after the token step, the OAuth2 session connects to `smtp.gmail.com:587`, says EHLO, starts TLS and authenticates with XOAUTH2 as the sender with the settled access token |
| Send.Deliver | mail.py:293-310 | delivery sends one SENDMAIL from the configured sender to the recipient, whose message has `From` "sender-name <sender>", `Reply-To` "reply-to-name <reply-to>", the recipient as `To`, the subject and the parts, then closes the session |
| Send.SendWith | mail.py:193-310 | a missing top-level section fails before any effect; otherwise the route taken is the one the selection chain picks |
| Send.TokenEffectsOnlyWhenDue | mail.py:216-249 | only the OAuth2 route calls the provider, writes the token file or authenticates with XOAUTH2; the provider is called once exactly when the stored token has expired; a successful OAuth2 send with an expired token writes the file exactly once and authenticates exactly once |
| Send.ValidTokenNotRewritten | mail.py:224-236 | a send made while the stored token is valid neither calls the provider nor writes the token file |
| Send.OAuthBranchSession | mail.py:238-249 | a successful OAuth2 branch connects to `smtp.gmail.com:587`, starts TLS and authenticates with XOAUTH2 as the configured sender with the token step's access token |
| Send.OAuthSession | mail.py:238-249 | a successful OAuth2 send authenticates as the configured sender with the settled access token: the provider's new token when the stored one had expired (so the answer was usable), the stored one otherwise |
| Send.RejectedRefreshSendsNothing | mail.py:225-236 | when a refresh is due and the answer lacks a field, the call ends with that KeyError after the provider call alone: no token file write, no SMTP connection, no AUTH, no delivery |
| Send.ForcedIspWithoutRelayFails | mail.py:201-253 | forcing the relay with no `relay` key fails at that lookup with no effect |
| Send.SmtplibSession | mail.py:257-265 | a successful smtplib send starts TLS exactly when `starttls` is truthy and logs in right before delivering |
| Send.DeliveryEndsSession | mail.py:293-310 | every successful SMTP-route send ends with SENDMAIL from the sender to the recipient after the test-mode override, with `From` and `Reply-To` formed from the `user` section, the subject and the parts, then closes the session |
| Send.TestModeSendsTestText | mail.py:204-206 | in test mode the delivered message carries the test subject and the test text as its first part |
| Send.SsmtpDelivers | mail.py:269-290 | with `subprocess` bound, a successful ssmtp send writes the raw document, runs ssmtp for the recipient and removes the scratch file, and nothing else |
| Send.SsmtpNeverRunsAsWritten | mail.py:282-288 | as written, `subprocess` is imported only when neither smtplib nor oauth2 imported (mail.py lines 97-98), so when smtplib or oauth2 imported, the ssmtp route never runs ssmtp nor removes the scratch file; a normal return ends with the swallowed failure, and when the `user` keys and the ssmtp path are present and the document is ASCII the call returns without error having only written the scratch file |
| Send.SendEmailAsWritten | mail.py:90-98 | `sendEmail` as written, with `subprocess` bound only when neither smtplib nor oauth2 imported: it takes the same route as the intended call and gives the same outcome on every route other than ssmtp, and on all routes when neither module imported |
| Send.SendEmail | mail.py:193-310 | `sendEmail` with the subprocess always available: on the ssmtp route the caught subprocess failure never occurs |
| Send.SsmtpScenarioAsWritten | mail.py:269-290 | a concrete configuration on which the as-written call only writes the scratch file while the corrected call runs ssmtp |

## Left out

- Logging (`logPrint`), the log file and `set_debuglevel`: output only.
- The network: `oauth2.RefreshToken`, `GenerateOAuth2String` and the SMTP conversation. The refresh answer is a parameter: either both fields, or without `access_token` or without `expires_in`. Exceptions raised inside `oauth2.RefreshToken` itself (a failed connection) are not modelled. SMTP commands are recorded as effects, and the server is taken to accept every command. SMTP failures and exceptions raised by `smtplib` are not modelled.
- Send.IspBranch: a `relay` set to `None` (the wizard stores it for a new key whose prompt is left blank, mail.py:383-385 and 402) is recorded as `ConnectDefaultPort(None)` followed by a delivery. In the code, `smtplib.SMTP(None)` opens no connection and `sendmail` then raises `SMTPServerDisconnected`. This is one of the `smtplib` exceptions the model leaves out.
- `GenerateOAuth2String`: the XOAUTH2 command records the user and access token it is built from, not the encoded string.
- The MIME serialisation of `msg.as_string()`: the message is recorded as its headers and parts.
- The file formats (JSON token file, YAML configuration) and `os.path.exists`. The token file is a parameter holding either nothing or its three string fields. Configuration values are `None`, booleans, integers or strings; other YAML types and sections that are not mappings are not modelled.
- The `subprocess.call` shell command string and its exit status: the call is an effect carrying the ssmtp path and the recipient.
- `initOptions`, `prepEmail`, `initialiseOAuth`, `loadConfig` and the rest of `configureScript`: command-line parsing, file reading and interactive prompts around the modelled rules. `updateConfig` takes the typed line as a parameter.
- The default argument `subject='No Subject Specified'`: the model's message carries whatever subject the caller passes.
- Timestamp.Parse: accepts only the zero-padded 19-character form that `strftime` produces. `strptime` also accepts unpadded fields such as `2024-1-5 3:04:05`, so the model rejects some texts that CPython reads. Every text the script itself writes is accepted.
- Timestamp: `datetime.now()` is a parameter, and time zones are not modelled, as the script uses naive local times throughout.
- Send.SendWith: the `Exception` caught around `subprocess.call` is modelled only for the unbound name `subprocess`; other failures of `os.remove` or the shell are not modelled.

## Findings

| source | as written | input that shows it | evidently intended | confidence | as-written member | corrected member |
|---|---|---|---|---|---|---|
| mail.py:97-98 | `subprocess` is imported only when neither `smtplib` nor `oauth2` imported. The ssmtp branch still calls `subprocess.call` inside `try/except Exception`. | `smtplib` imports (it is in the standard library), `oauth2` does not, `relay` is `None` and no smtp server is configured. The ssmtp route is taken, the `NameError` is caught and logged, no email is sent, the scratch file stays behind and the caller sees no error. | The ssmtp fallback can always start its subprocess, so it writes the document, runs ssmtp for the recipient and removes the scratch file. | not executed | Send.SendEmailAsWritten, Send.SsmtpNeverRunsAsWritten, Send.SsmtpScenarioAsWritten | Send.SendEmail, Send.SsmtpDelivers |

=== FILE: keys.dfy ===
/** `validateKeys`: a configuration section is usable only when every key the
    transport needs is present and not `None`. */
module Keys {
  import opened Py

  /** One key is usable in `obj`. */
  predicate KeyUsable(obj: Section, key: string)
  {
    key in obj && obj[key] != PyNone
  }

  /** Reference meaning: every listed key is usable. */
  predicate AllUsable(obj: Section, keys: seq<string>)
  {
    forall i :: 0 <= i < |keys| ==> KeyUsable(obj, keys[i])
  }

  /** The accumulated `result` after the loop has visited `keys` in order:
      `result = result and key in obj and obj[key] is not None`. */
  function ValidateKeys(obj: Section, keys: seq<string>): (r: bool)
    ensures r <==> AllUsable(obj, keys)
    decreases |keys|
  {
    if |keys| == 0 then true
    else
      var last := keys[|keys| - 1];
      ValidateKeys(obj, keys[..|keys| - 1]) && last in obj && obj[last] != PyNone
  }

  /** The loop of the source, one key at a time. */
  method ValidateKeysLoop(obj: Section, keys: seq<string>) returns (result: bool)
    ensures result <==> forall i :: 0 <= i < |keys| ==> keys[i] in obj && obj[keys[i]] != PyNone
  {
    result := true;
    var n := 0;
    while n < |keys|
      invariant 0 <= n <= |keys|
      invariant result <==> forall i :: 0 <= i < n ==> keys[i] in obj && obj[keys[i]] != PyNone
    {
      var key := keys[n];
      result := result && key in obj && obj[key] != PyNone;
      n := n + 1;
    }
  }

  /** With no keys to check a section is always usable. */
  lemma EmptyKeyListValid(obj: Section)
    ensures ValidateKeys(obj, [])
  {
  }

  /** Asking for more keys never turns a rejection into an acceptance. */
  lemma {:induction false} MoreKeysNeverHelp(obj: Section, keys: seq<string>, more: seq<string>)
    ensures ValidateKeys(obj, keys + more) ==> ValidateKeys(obj, keys)
    ensures ValidateKeys(obj, keys + more) <==> ValidateKeys(obj, keys) && ValidateKeys(obj, more)
  {
    var all := keys + more;
    if ValidateKeys(obj, all) {
      forall i | 0 <= i < |keys| ensures KeyUsable(obj, keys[i]) {
        assert all[i] == keys[i];
      }
      forall i | 0 <= i < |more| ensures KeyUsable(obj, more[i]) {
        assert all[|keys| + i] == more[i];
      }
    }
    if ValidateKeys(obj, keys) && ValidateKeys(obj, more) {
      forall i | 0 <= i < |all| ensures KeyUsable(obj, all[i]) {
        if i < |keys| {
          assert all[i] == keys[i];
        } else {
          assert all[i] == more[i - |keys|];
        }
      }
    }
  }

  /** Only the set of listed keys matters: order and repetition do not. */
  lemma OnlyKeySetMatters(obj: Section, keys1: seq<string>, keys2: seq<string>)
    requires forall k :: k in keys1 <==> k in keys2
    ensures ValidateKeys(obj, keys1) == ValidateKeys(obj, keys2)
  {
    if ValidateKeys(obj, keys1) {
      forall i | 0 <= i < |keys2| ensures KeyUsable(obj, keys2[i]) {
        assert keys2[i] in keys1;
      }
    }
    if ValidateKeys(obj, keys2) {
      forall i | 0 <= i < |keys1| ensures KeyUsable(obj, keys1[i]) {
        assert keys1[i] in keys2;
      }
    }
  }

  /** A key listed but bound to `None` rejects the section. */
  lemma NoneValueRejects(obj: Section, keys: seq<string>, key: string)
    requires key in keys
    requires key in obj && obj[key] == PyNone
    ensures !ValidateKeys(obj, keys)
  {
    var i :| 0 <= i < |keys| && keys[i] == key;
    assert !KeyUsable(obj, keys[i]);
  }
}

=== FILE: message.dfy ===
/** The message `sendEmail` sends: the test-mode override of its content, the
    raw document handed to ssmtp, and the multipart message handed to an SMTP
    session. */
module Message {
  import opened Py
  import opened Text

  /** The command-line flags `sendEmail` reads through the global `opts`. */
  datatype Options = Options(useISP: bool, test: bool)

  /** The arguments of `sendEmail`. Each may be `None`: the recipient and
      subject when no command-line value was given, the bodies when no file
      was read. */
  datatype Message = Message(recipient: Value, subject: Value, bodyText: Value, bodyHtml: Value)

  const TestSubject: string := "Test Email"
  const TestBody: string := "This is a test email."

  /** `opts and opts.test`: the module can be imported without `opts`. */
  predicate TestMode(opts: Option<Options>)
  {
    opts.Some? && opts.value.test
  }

  /** `opts and opts.useISP`. */
  predicate ForceIsp(opts: Option<Options>)
  {
    opts.Some? && opts.value.useISP
  }

  /** In test mode the subject and text body are replaced by fixed text; the
      HTML body and the recipient are kept. */
  function ApplyTestMode(opts: Option<Options>, m: Message): (r: Message)
    ensures r.recipient == m.recipient && r.bodyHtml == m.bodyHtml
    ensures TestMode(opts) ==> r.subject == PyStr(TestSubject) && r.bodyText == PyStr(TestBody)
    ensures !TestMode(opts) ==> r == m
  {
    if TestMode(opts) then m.(subject := PyStr(TestSubject), bodyText := PyStr(TestBody)) else m
  }

  /** In test mode the caller's subject and text body make no difference. */
  lemma TestModeIgnoresContent(opts: Option<Options>, m1: Message, m2: Message)
    requires TestMode(opts)
    requires m1.recipient == m2.recipient && m1.bodyHtml == m2.bodyHtml
    ensures ApplyTestMode(opts, m1) == ApplyTestMode(opts, m2)
  {
  }

  /** Applying the override twice is the same as once. */
  lemma TestModeIdempotent(opts: Option<Options>, m: Message)
    ensures ApplyTestMode(opts, ApplyTestMode(opts, m)) == ApplyTestMode(opts, m)
  {
  }

  // ---------------------------------------------------------------------------
  // The raw document for ssmtp

  /** The values the ssmtp document is built from, each printed with `%s`. */
  datatype RawHeaders = RawHeaders(recipient: Value, sender: Value, replyToName: Value, replyTo: Value, subject: Value)

  /** The six header lines, in order. Note that the `From` display name is
      the sender's address, not its name. */
  function HeaderLines(h: RawHeaders): seq<string>
  {
    [ "MIME-Version: 1.0",
      "Content-Type: text/html",
      "To: <" + ToStr(h.recipient) + ">",
      "From: \"" + ToStr(h.sender) + "\" <" + ToStr(h.sender) + ">",
      "Reply-To: \"" + ToStr(h.replyToName) + "\" <" + ToStr(h.replyTo) + ">",
      "Subject: " + ToStr(h.subject) ]
  }

  /** The document: the header lines, an empty line and the body, joined by
      `\n`, exactly the layout of the format string in the source. A text body
      of `None` is printed as `None`. */
  function SsmtpDocument(h: RawHeaders, body: Value): string
  {
    var ls := HeaderLines(h);
    ls[0] + "\n" + ls[1] + "\n" + ls[2] + "\n" + ls[3] + "\n" + ls[4] + "\n" + ls[5] + "\n" + "\n" + ToStr(body)
  }

  /** No header value contains a line break. */
  predicate SingleLineHeaders(h: RawHeaders)
  {
    && '\n' !in ToStr(h.recipient) && '\n' !in ToStr(h.sender)
    && '\n' !in ToStr(h.replyToName) && '\n' !in ToStr(h.replyTo)
    && '\n' !in ToStr(h.subject)
  }

  /** When no header value holds a line break, splitting the document at `\n`
      gives back the six header lines, one empty line, then the lines of the
      body: the body starts right after the first empty line. */
  lemma {:induction false} SsmtpDocumentLayout(h: RawHeaders, body: Value)
    requires SingleLineHeaders(h)
    ensures Lines(SsmtpDocument(h, body)) == HeaderLines(h) + [""] + Lines(ToStr(body))
  {
    var ls := HeaderLines(h);
    var b := ToStr(body);
    var block := ls[0] + "\n" + ls[1] + "\n" + ls[2] + "\n" + ls[3] + "\n" + ls[4] + "\n" + ls[5];
    assert SsmtpDocument(h, body) == (block + "\n" + "") + "\n" + b;
    HeaderLinesSingle(h);
    SixLines(ls[0], ls[1], ls[2], ls[3], ls[4], ls[5]);
    LinesJoin(block, "");
    LinesSingle("");
    LinesJoin(block + "\n" + "", b);
  }

  /** Six newline-free lines joined by `\n` split back into the same six lines. */
  lemma SixLines(l0: string, l1: string, l2: string, l3: string, l4: string, l5: string)
    requires '\n' !in l0 && '\n' !in l1 && '\n' !in l2 && '\n' !in l3 && '\n' !in l4 && '\n' !in l5
    ensures Lines(l0 + "\n" + l1 + "\n" + l2 + "\n" + l3 + "\n" + l4 + "\n" + l5) == [l0, l1, l2, l3, l4, l5]
  {
    var a2 := l0 + "\n" + l1;
    var a3 := a2 + "\n" + l2;
    var a4 := a3 + "\n" + l3;
    var a5 := a4 + "\n" + l4;
    LinesSingle(l0); LinesSingle(l1); LinesSingle(l2);
    LinesSingle(l3); LinesSingle(l4); LinesSingle(l5);
    LinesJoin(l0, l1);
    LinesJoin(a2, l2);
    LinesJoin(a3, l3);
    LinesJoin(a4, l4);
    LinesJoin(a5, l5);
  }

  lemma HeaderLinesSingle(h: RawHeaders)
    requires SingleLineHeaders(h)
    ensures forall i :: 0 <= i < |HeaderLines(h)| ==> '\n' !in HeaderLines(h)[i]
  {
    var ls := HeaderLines(h);
    var sender := ToStr(h.sender);
    var name := ToStr(h.replyToName);
    NoBreakJoin("To: <" + ToStr(h.recipient), ">");
    NoBreakJoin("From: \"" + sender, "\" <");
    NoBreakJoin("From: \"" + sender + "\" <" + sender, ">");
    NoBreakJoin("Reply-To: \"" + name, "\" <");
    NoBreakJoin("Reply-To: \"" + name + "\" <" + ToStr(h.replyTo), ">");
    NoBreakJoin("Subject: ", ToStr(h.subject));
    assert '\n' !in ls[0] && '\n' !in ls[1] && '\n' !in ls[2];
    assert '\n' !in ls[3] && '\n' !in ls[4] && '\n' !in ls[5];
  }

  lemma NoBreakJoin(a: string, b: string)
    ensures '\n' in a + b <==> '\n' in a || '\n' in b
  {
    assert forall c :: c in a + b <==> c in a || c in b;
  }

  /** The document is ASCII, so `encode('ascii')` accepts it, exactly when
      every value printed into it is. */
  lemma DocumentAscii(h: RawHeaders, body: Value)
    ensures IsAscii(SsmtpDocument(h, body)) <==>
      && IsAscii(ToStr(h.recipient)) && IsAscii(ToStr(h.sender)) && IsAscii(ToStr(h.replyToName))
      && IsAscii(ToStr(h.replyTo)) && IsAscii(ToStr(h.subject)) && IsAscii(ToStr(body))
  {
    var ls := HeaderLines(h);
    var b := ToStr(body);
    var d1 := ls[0] + "\n" + ls[1];
    var d2 := d1 + "\n" + ls[2];
    var d3 := d2 + "\n" + ls[3];
    var d4 := d3 + "\n" + ls[4];
    var d5 := d4 + "\n" + ls[5];
    var d6 := d5 + "\n" + "";
    assert SsmtpDocument(h, body) == d6 + "\n" + b;
    AsciiJoin(ls[0], ls[1]);
    AsciiJoin(d1, ls[2]);
    AsciiJoin(d2, ls[3]);
    AsciiJoin(d3, ls[4]);
    AsciiJoin(d4, ls[5]);
    AsciiJoin(d5, "");
    AsciiJoin(d6, b);
    HeaderLinesAscii(h);
  }

  /** Two texts joined by a line break are ASCII exactly when both are. */
  lemma AsciiJoin(a: string, b: string)
    ensures IsAscii(a + "\n" + b) <==> IsAscii(a) && IsAscii(b)
  {
    assert IsAscii("\n");
    AsciiConcat(a, "\n");
    AsciiConcat(a + "\n", b);
  }

  /** The header lines are ASCII exactly when the values printed into them are. */
  lemma HeaderLinesAscii(h: RawHeaders)
    ensures var ls := HeaderLines(h);
      (IsAscii(ls[0]) && IsAscii(ls[1]) && IsAscii(ls[2]) && IsAscii(ls[3]) && IsAscii(ls[4]) && IsAscii(ls[5]))
      <==> (IsAscii(ToStr(h.recipient)) && IsAscii(ToStr(h.sender)) && IsAscii(ToStr(h.replyToName))
            && IsAscii(ToStr(h.replyTo)) && IsAscii(ToStr(h.subject)))
  {
    var ls := HeaderLines(h);
    var to, from, name, addr, subj := ToStr(h.recipient), ToStr(h.sender), ToStr(h.replyToName),
      ToStr(h.replyTo), ToStr(h.subject);
    assert IsAscii(ls[0]) && IsAscii(ls[1]);
    assert IsAscii("To: <") && IsAscii(">") && IsAscii("From: \"") && IsAscii("\" <");
    assert IsAscii("Reply-To: \"") && IsAscii("Subject: ");
    AsciiConcat("To: <", to); AsciiConcat("To: <" + to, ">");
    AsciiConcat("From: \"", from); AsciiConcat("From: \"" + from, "\" <");
    AsciiConcat("From: \"" + from + "\" <", from); AsciiConcat("From: \"" + from + "\" <" + from, ">");
    AsciiConcat("Reply-To: \"", name); AsciiConcat("Reply-To: \"" + name, "\" <");
    AsciiConcat("Reply-To: \"" + name + "\" <", addr); AsciiConcat("Reply-To: \"" + name + "\" <" + addr, ">");
    AsciiConcat("Subject: ", subj);
  }

  /** A worked example: recipient `a@example.com`, subject `Hi`, text body
      `Hello` give a document with the lines `To: <a@example.com>` and
      `Subject: Hi`, then an empty line and `Hello`. */
  lemma SsmtpScenario(sender: Value, replyToName: Value, replyTo: Value)
    requires '\n' !in ToStr(sender) && '\n' !in ToStr(replyToName) && '\n' !in ToStr(replyTo)
    ensures var doc := SsmtpDocument(RawHeaders(PyStr("a@example.com"), sender, replyToName, replyTo, PyStr("Hi")), PyStr("Hello"));
      var ls := Lines(doc);
      |ls| == 8 && ls[2] == "To: <a@example.com>" && ls[5] == "Subject: Hi" && ls[6] == "" && ls[7] == "Hello"
  {
    var h := RawHeaders(PyStr("a@example.com"), sender, replyToName, replyTo, PyStr("Hi"));
    ScenarioHeaderLines(sender, replyToName, replyTo);
    SsmtpDocumentLayout(h, PyStr("Hello"));
    assert ToStr(PyStr("Hello")) == "Hello";
    LinesSingle("Hello");
    LayoutIndices(HeaderLines(h), "Hello");
  }

  lemma ScenarioHeaderLines(sender: Value, replyToName: Value, replyTo: Value)
    requires '\n' !in ToStr(sender) && '\n' !in ToStr(replyToName) && '\n' !in ToStr(replyTo)
    ensures var h := RawHeaders(PyStr("a@example.com"), sender, replyToName, replyTo, PyStr("Hi"));
      && SingleLineHeaders(h)
      && |HeaderLines(h)| == 6
      && HeaderLines(h)[2] == "To: <a@example.com>" && HeaderLines(h)[5] == "Subject: Hi"
  {
    var h := RawHeaders(PyStr("a@example.com"), sender, replyToName, replyTo, PyStr("Hi"));
    assert SingleLineHeaders(h) by {
      assert ToStr(PyStr("a@example.com")) == "a@example.com" && ToStr(PyStr("Hi")) == "Hi";
    }
    assert HeaderLines(h)[2] == "To: <" + "a@example.com" + ">";
    assert HeaderLines(h)[5] == "Subject: " + "Hi";
  }

  lemma LayoutIndices(ls: seq<string>, b: string)
    requires |ls| == 6
    ensures var all := ls + [""] + [b];
      |all| == 8 && all[2] == ls[2] && all[5] == ls[5] && all[6] == "" && all[7] == b
  {
  }

  // ---------------------------------------------------------------------------
  // The multipart message for SMTP sessions

  /** One `MIMEText` part: its content and subtype. */
  datatype Part = Part(content: string, subtype: string)

  /** The `MIMEMultipart('alternative')` message with its four headers. The
      recipient and subject are stored as passed. */
  datatype Multipart = Multipart(from: string, replyTo: string, to: Value, subject: Value, parts: seq<Part>)

  /** The parts attached: the text body as `plain` when it is not `None`,
      then the HTML body as `html` when it is not `None`. */
  function Parts(bodyText: Value, bodyHtml: Value): (r: seq<Part>)
    ensures |r| == (if bodyText != PyNone then 1 else 0) + (if bodyHtml != PyNone then 1 else 0)
    ensures bodyText != PyNone ==> r[0] == Part(ToStr(bodyText), "plain")
    ensures bodyHtml != PyNone ==> r[|r| - 1] == Part(ToStr(bodyHtml), "html")
    ensures forall k :: 0 <= k < |r| ==> r[k].subtype == "plain" || r[k].subtype == "html"
  {
    (if bodyText != PyNone then [Part(ToStr(bodyText), "plain")] else [])
      + (if bodyHtml != PyNone then [Part(ToStr(bodyHtml), "html")] else [])
  }

  /** `"%s <%s>" % (name, address)`, the form of the `From` and `Reply-To` headers. */
  function NamedAddress(name: Value, address: Value): string
  {
    ToStr(name) + " <" + ToStr(address) + ">"
  }

  function Assemble(senderName: Value, sender: Value, replyToName: Value, replyTo: Value, m: Message): (r: Multipart)
    ensures r.from == ToStr(senderName) + " <" + ToStr(sender) + ">"
    ensures r.replyTo == ToStr(replyToName) + " <" + ToStr(replyTo) + ">"
    ensures r.to == m.recipient && r.subject == m.subject
    ensures r.parts == Parts(m.bodyText, m.bodyHtml)
  {
    Multipart(NamedAddress(senderName, sender), NamedAddress(replyToName, replyTo), m.recipient, m.subject,
              Parts(m.bodyText, m.bodyHtml))
  }
}

=== FILE: py.dfy ===
/** Python values as they reach the mail script: loaded from the YAML
    configuration file, or passed as message arguments. Only the kinds the
    script actually meets are modelled. */
module Py {

  datatype Option<+T> = None | Some(value: T)

  /** The outcome of a step that may raise: a value, or the exception it raises. */
  datatype Result<+T, +E> = Ok(value: T) | Err(error: E)

  /** A YAML scalar or Python argument: `None`, a boolean, an integer or a string. */
  datatype Value = PyNone | PyBool(b: bool) | PyInt(i: int) | PyStr(s: string)

  /** One configuration section (`user`, `OAuth2`, `ISP`, `smtp`, `ssmtp`). */
  type Section = map<string, Value>

  /** The whole configuration: section name to section. */
  type Config = map<string, Section>

  /** Python truthiness of a value, as used by `if smtpc['starttls']:`. */
  predicate Truthy(v: Value)
  {
    match v
    case PyNone => false
    case PyBool(b) => b
    case PyInt(i) => i != 0
    case PyStr(s) => |s| > 0
  }

  function DigitChar(d: int): (c: char)
    requires 0 <= d < 10
    ensures '0' <= c <= '9' && c as int - '0' as int == d
  {
    ('0' as int + d) as char
  }

  /** Decimal digits of a natural number, most significant first, no leading zeros. */
  function Decimal(n: nat): (r: string)
    ensures |r| > 0
    ensures forall k :: 0 <= k < |r| ==> '0' <= r[k] <= '9'
    ensures n > 0 ==> r[0] != '0'
    decreases n
  {
    if n < 10 then [DigitChar(n)] else Decimal(n / 10) + [DigitChar(n % 10)]
  }

  /** Python's `str(v)`, which is what `'%s' % v` inserts. */
  function ToStr(v: Value): (r: string)
    ensures v.PyStr? ==> r == v.s
    ensures v.PyNone? ==> r == "None"
  {
    match v
    case PyNone => "None"
    case PyBool(b) => if b then "True" else "False"
    case PyInt(i) => if i < 0 then "-" + Decimal(-i) else Decimal(i)
    case PyStr(s) => s
  }
}

=== FILE: send.dfy ===
/** `sendEmail`: pick a transport, authenticate, and hand over the message.

    The network, the token file, the scratch email file and the ssmtp
    subprocess are outside the model. What the function does to them is
    recorded as a trace of effects, in order; the exception that ends a call
    early, if any, is returned beside the effects already performed. The
    SMTP server is assumed to accept every command. */
module Send {
  import opened Py
  import opened Keys
  import opened Text
  import opened Timestamp
  import opened Token
  import opened Transport
  import opened Message

  const GmailHost: string := "smtp.gmail.com"
  const GmailPort: int := 587

  /** A command issued on an `smtplib.SMTP` session. */
  datatype Command =
    | Connect(host: Value, port: Value)          // smtplib.SMTP(host, port)
    | ConnectDefaultPort(host: Value)            // smtplib.SMTP(host): the standard SMTP port
    | Ehlo
    | StartTls
    | AuthXOAuth2(user: Value, accessToken: string)
                                                 // docmd('AUTH', 'XOAUTH2 ' + GenerateOAuth2String(user, token))
    | Login(username: Value, password: Value)
    | SendMail(from: Value, to: Value, message: Multipart)
    | Close

  datatype Effect =
    | RefreshCall(clientId: Value, clientSecret: Value, refreshToken: string)
                                                 // oauth2.RefreshToken over the network
    | TokenFileWritten(token: StoredToken)
    | TokenFileClobbered                         // opened for writing, then strftime raised
    | Smtp(command: Command)
    | EmailFileWritten(document: string)
    | SsmtpRun(path: Value, recipient: Value)    // `<path> <recipient> < <email file>` through the shell
    | EmailFileRemoved
    | SubprocessFailed                           // the exception caught around the subprocess call

  /** The exception that ends `sendEmail` early. */
  datatype SendError =
    | MissingSection(section: string)            // KeyError on conf[...]
    | MissingKey(section: string, key: string)   // KeyError on a section
    | TokenFailure(cause: TokenError)
    | SmtplibMissing                             // NameError: smtplib did not import
    | NotAscii                                   // encode('ascii') fails

  /** The route taken (None when a section lookup failed before the choice),
      the effects performed, and the exception raised, if any. */
  datatype Outcome = Outcome(route: Option<Transport>, effects: seq<Effect>, error: Option<SendError>)

  /** Process-wide facts: the parsed options (None when imported as a
      module), which optional modules imported, and whether the name
      `subprocess` is bound when the ssmtp branch runs. */
  datatype Environment = Environment(opts: Option<Options>, useOAuth: bool, useSMTP: bool, subprocessImported: bool)

  /** What the outside world supplies: the token file (None when it does not
      exist), the clock, and the provider's answer should a refresh be asked for. */
  datatype World = World(tokenFile: Option<StoredToken>, now: int, answer: RefreshAnswer)

  function Lookup(sec: Section, name: string, key: string): (r: Result<Value, SendError>)
    ensures r.Ok? <==> key in sec
    ensures r.Ok? ==> r.value == sec[key]
    ensures r.Err? ==> r.error == MissingKey(name, key)
  {
    if key in sec then Ok(sec[key]) else Err(MissingKey(name, key))
  }

  function SectionOf(conf: Config, name: string): (r: Result<Section, SendError>)
    ensures r.Ok? <==> name in conf
    ensures r.Ok? ==> r.value == conf[name]
    ensures r.Err? ==> r.error == MissingSection(name)
  {
    if name in conf then Ok(conf[name]) else Err(MissingSection(name))
  }

  // ---------------------------------------------------------------------------
  // Counting effects

  /** The kinds of effect the properties below count. */
  datatype Kind = RefreshKind | TokenWriteKind | AuthKind | StartTlsKind | SubprocessKind

  predicate Is(e: Effect, kind: Kind)
  {
    match kind
    case RefreshKind => e.RefreshCall?
    case TokenWriteKind => e.TokenFileWritten? || e.TokenFileClobbered?
    case AuthKind => e.Smtp? && e.command.AuthXOAuth2?
    case StartTlsKind => e == Smtp(StartTls)
    case SubprocessKind => e.SsmtpRun?
  }

  /** How many effects of `es` are of the given kind. */
  function Count(es: seq<Effect>, kind: Kind): (n: nat)
    ensures n <= |es|
    ensures n == 0 <==> forall k :: 0 <= k < |es| ==> !Is(es[k], kind)
  {
    if |es| == 0 then 0 else (if Is(es[0], kind) then 1 else 0) + Count(es[1..], kind)
  }

  lemma {:induction false} CountAppend(a: seq<Effect>, b: seq<Effect>, kind: Kind)
    ensures Count(a + b, kind) == Count(a, kind) + Count(b, kind)
    decreases |a|
  {
    if |a| > 0 {
      assert (a + b)[0] == a[0];
      assert (a + b)[1..] == a[1..] + b;
      CountAppend(a[1..], b, kind);
    } else {
      assert a + b == b;
    }
  }

  // ---------------------------------------------------------------------------
  // The OAuth2 token step

  /** Lines 218-236: load the token file, and when the expiry lies before
      `now` ask the provider for a new access token and write the record back.
      Gives the effects and the access token to use, or the exception. */
  function TokenStep(oa2: Section, f: StoredToken, now: int, answer: RefreshAnswer): (r: (seq<Effect>, Result<string, SendError>))
    requires ValidInstant(now)
    requires ValidateKeys(oa2, ["client_id", "client_secret"])
    ensures |r.0| > 0 <==> Load(f).Ok? && Expired(Load(f).value, now)
    ensures |r.0| > 0 ==> r.0[0] == RefreshCall(oa2["client_id"], oa2["client_secret"], f.refresh)
    ensures |r.0| > 0 && r.1.Ok? ==>
      answer.Granted? && |r.0| == 2 && r.0[1].TokenFileWritten? && r.1.value == answer.response.accessToken
    ensures |r.0| > 0 && !answer.Granted? ==> |r.0| == 1 && r.1.Err?
    ensures Load(f).Err? ==> r.1.Err?
    ensures Load(f).Ok? && !Expired(Load(f).value, now) ==> r == ([], Ok(f.access))
  {
    match Load(f)
    case Err(e) => ([], Err(TokenFailure(e)))
    case Ok(tok) =>
      if !Expired(tok, now) then ([], Ok(tok.access))
      else
        var call := [RefreshCall(oa2["client_id"], oa2["client_secret"], tok.refresh)];
        match answer
        case LacksAccessToken => (call, Err(TokenFailure(AnswerLacks("access_token"))))
        case LacksExpiresIn => (call, Err(TokenFailure(AnswerLacks("expires_in"))))
        case Granted(resp) =>
          match Refresh(tok, now, resp)
          case Err(e) => (call, Err(TokenFailure(e)))
          case Ok(renewed) =>
            match Persist(renewed)
            case Err(e) => (call + [TokenFileClobbered], Err(TokenFailure(e)))
            case Ok(out) => (call + [TokenFileWritten(out)], Ok(renewed.access))
  }

  /** The provider's answer is read only when a refresh is due: with a
      missing, unreadable or unexpired token every answer gives the same step. */
  lemma AnswerReadOnlyWhenDue(oa2: Section, f: StoredToken, now: int, a: RefreshAnswer, b: RefreshAnswer)
    requires ValidInstant(now)
    requires ValidateKeys(oa2, ["client_id", "client_secret"])
    requires !(Load(f).Ok? && Expired(Load(f).value, now))
    ensures TokenStep(oa2, f, now, a) == TokenStep(oa2, f, now, b)
  {
  }

  /** A refresh answer without `access_token` or `expires_in` ends the step
      with a KeyError right after the provider call: the token file is not
      opened, and no access token comes out of the step. */
  lemma RejectedRefreshTrace(oa2: Section, f: StoredToken, now: int, answer: RefreshAnswer)
    requires ValidInstant(now)
    requires ValidateKeys(oa2, ["client_id", "client_secret"])
    requires Load(f).Ok? && Expired(Load(f).value, now)
    requires !answer.Granted?
    ensures var (es, r) := TokenStep(oa2, f, now, answer);
      && es == [RefreshCall(oa2["client_id"], oa2["client_secret"], f.refresh)]
      && r == Err(TokenFailure(AnswerLacks(if answer.LacksAccessToken? then "access_token" else "expires_in")))
      && Count(es, RefreshKind) == 1 && Count(es, TokenWriteKind) == 0 && Count(es, AuthKind) == 0
  {
    var es := TokenStep(oa2, f, now, answer).0;
    ExpiredTokenCounts(es, []);
    assert es + [] == es;
  }

  /** The token step does what `EnsureFresh` describes: it writes the file
      exactly when `EnsureFresh` rewrites it, with the same record, returns the
      same access token, and calls the provider once when the loaded record
      has expired and never otherwise. */
  lemma TokenStepAgrees(oa2: Section, f: StoredToken, now: int, resp: RefreshResponse)
    requires ValidInstant(now)
    requires ValidateKeys(oa2, ["client_id", "client_secret"])
    ensures var (es, r) := TokenStep(oa2, f, now, Granted(resp));
      && (r.Ok? <==> EnsureFresh(f, now, resp).Ok?)
      && (r.Ok? ==> r.value == EnsureFresh(f, now, resp).value.access)
      && (forall x :: TokenFileWritten(x) in es <==>
            EnsureFresh(f, now, resp).Ok? && EnsureFresh(f, now, resp).value.rewritten == Some(x))
      && Count(es, RefreshKind) == (if Load(f).Ok? && Expired(Load(f).value, now) then 1 else 0)
      && Count(es, TokenWriteKind) <= 1
      && (Count(es, TokenWriteKind) == 1 ==> Load(f).Ok? && Expired(Load(f).value, now))
      && (r.Ok? && Load(f).Ok? && Expired(Load(f).value, now) ==> Count(es, TokenWriteKind) == 1)
      && Count(es, AuthKind) == 0
  {
    var (es, r) := TokenStep(oa2, f, now, Granted(resp));
    if Load(f).Ok? && Expired(Load(f).value, now) {
      ExpiredTokenTrace(oa2, f, now, resp);
    } else {
      assert es == [];
    }
  }

  /** The expired case of `TokenStepAgrees`: one provider call, then at most
      one write, which is the record `EnsureFresh` rewrites. */
  lemma ExpiredTokenTrace(oa2: Section, f: StoredToken, now: int, resp: RefreshResponse)
    requires ValidInstant(now)
    requires ValidateKeys(oa2, ["client_id", "client_secret"])
    requires Load(f).Ok? && Expired(Load(f).value, now)
    ensures var (es, r) := TokenStep(oa2, f, now, Granted(resp));
      && (r.Ok? <==> EnsureFresh(f, now, resp).Ok?)
      && (r.Ok? ==> r.value == EnsureFresh(f, now, resp).value.access)
      && (forall x :: TokenFileWritten(x) in es <==>
            EnsureFresh(f, now, resp).Ok? && EnsureFresh(f, now, resp).value.rewritten == Some(x))
      && Count(es, RefreshKind) == 1
      && Count(es, TokenWriteKind) <= 1
      && (r.Ok? ==> Count(es, TokenWriteKind) == 1)
      && Count(es, AuthKind) == 0
  {
    var tok := Load(f).value;
    var call := [RefreshCall(oa2["client_id"], oa2["client_secret"], tok.refresh)];
    var es := TokenStep(oa2, f, now, Granted(resp)).0;
    match Refresh(tok, now, resp)
    case Err(_) =>
      assert es == call;
      ExpiredTokenCounts(call, []);
    case Ok(renewed) =>
      var last := match Persist(renewed) case Err(_) => TokenFileClobbered case Ok(out) => TokenFileWritten(out);
      assert es == call + [last];
      ExpiredTokenCounts(call, [last]);
  }

  /** The counts of a provider call followed by at most one token-file write. */
  lemma ExpiredTokenCounts(call: seq<Effect>, tail: seq<Effect>)
    requires |call| == 1 && call[0].RefreshCall?
    requires |tail| <= 1 && forall k :: 0 <= k < |tail| ==> tail[k].TokenFileWritten? || tail[k].TokenFileClobbered?
    ensures Count(call + tail, RefreshKind) == 1
    ensures Count(call + tail, TokenWriteKind) == |tail|
    ensures Count(call + tail, AuthKind) == 0
  {
    assert Count(call, RefreshKind) == 1 && Count(call, TokenWriteKind) == 0 && Count(call, AuthKind) == 0;
    if |tail| == 1 {
      assert Count(tail, TokenWriteKind) == 1 && Count(tail, RefreshKind) == 0 && Count(tail, AuthKind) == 0;
    } else {
      assert Count(tail, TokenWriteKind) == 0 && Count(tail, RefreshKind) == 0 && Count(tail, AuthKind) == 0;
    }
    CountAppend(call, tail, RefreshKind);
    CountAppend(call, tail, AuthKind);
    CountAppend(call, tail, TokenWriteKind);
  }

  // ---------------------------------------------------------------------------
  // Handing the message to an SMTP session (lines 293-310)

  function Deliver(userc: Section, m: Message): (r: (seq<Effect>, Option<SendError>))
    ensures r.1.None? ==>
      && |r.0| == 2 && r.0[1] == Smtp(Close) && "sender" in userc
      && r.0[0].Smtp? && r.0[0].command.SendMail?
      && r.0[0].command.from == userc["sender"] && r.0[0].command.to == m.recipient
      && r.0[0].command.message.subject == m.subject
      && r.0[0].command.message.parts == Parts(m.bodyText, m.bodyHtml)
    ensures r.1.None? ==>
      && "sender-name" in userc && "reply-to-name" in userc && "reply-to" in userc
      && r.0[0].Smtp? && r.0[0].command.SendMail?
      && r.0[0].command.message.from == ToStr(userc["sender-name"]) + " <" + ToStr(userc["sender"]) + ">"
      && r.0[0].command.message.replyTo == ToStr(userc["reply-to-name"]) + " <" + ToStr(userc["reply-to"]) + ">"
      && r.0[0].command.message.to == m.recipient
    ensures r.1.Some? ==> r.0 == []
    ensures PlainSession(r.0)
  {
    match Lookup(userc, "user", "sender-name")
    case Err(e) => ([], Some(e))
    case Ok(senderName) =>
      match Lookup(userc, "user", "sender")
      case Err(e) => ([], Some(e))
      case Ok(sender) =>
        match Lookup(userc, "user", "reply-to-name")
        case Err(e) => ([], Some(e))
        case Ok(replyToName) =>
          match Lookup(userc, "user", "reply-to")
          case Err(e) => ([], Some(e))
          case Ok(replyTo) =>
            var mime := Assemble(senderName, sender, replyToName, replyTo, m);
            ([Smtp(SendMail(sender, m.recipient, mime)), Smtp(Close)], None)
  }

  /** Effects that are all SMTP commands other than the OAuth2 AUTH. */
  predicate PlainSession(es: seq<Effect>)
  {
    forall k :: 0 <= k < |es| ==> es[k].Smtp? && !es[k].command.AuthXOAuth2?
  }

  /** A plain session calls no provider, writes no token file, runs no subprocess. */
  lemma PlainSessionCounts(es: seq<Effect>)
    requires PlainSession(es)
    ensures Count(es, RefreshKind) == 0 && Count(es, TokenWriteKind) == 0
    ensures Count(es, AuthKind) == 0 && Count(es, SubprocessKind) == 0
  {
  }

  /** The session's effects followed by the delivery. */
  function Finish(route: Transport, session: seq<Effect>, userc: Section, m: Message): (r: Outcome)
    ensures r.route == Some(route)
    ensures |session| <= |r.effects| && r.effects[..|session|] == session
    ensures r.error == Deliver(userc, m).1
    ensures r.effects[|session|..] == Deliver(userc, m).0
  {
    var (es, err) := Deliver(userc, m);
    Outcome(Some(route), session + es, err)
  }

  // ---------------------------------------------------------------------------
  // The four branches

  /** Lines 216-249: token step, then EHLO, STARTTLS and AUTH XOAUTH2 against
      Gmail's submission port. */
  function OAuthBranch(env: Environment, oa2: Section, userc: Section, m: Message, f: StoredToken,
                       now: int, answer: RefreshAnswer): (r: Outcome)
    requires ValidInstant(now)
    requires ValidateKeys(oa2, ["client_id", "client_secret"])
    ensures r.route == Some(OAuth2)
    ensures var (es, acc) := TokenStep(oa2, f, now, answer);
      && |es| <= |r.effects| && r.effects[..|es|] == es
      && (acc.Err? ==> r.effects == es && r.error == Some(acc.error))
      && (acc.Ok? && "sender" in userc && env.useSMTP ==>
            && |r.effects| >= |es| + 4
            && r.effects[|es|..|es| + 4] == [Smtp(Connect(PyStr(GmailHost), PyInt(GmailPort))), Smtp(Ehlo),
                                             Smtp(StartTls), Smtp(AuthXOAuth2(userc["sender"], acc.value))]
            && PlainSession(r.effects[|es| + 4..]))
      && (!(acc.Ok? && "sender" in userc && env.useSMTP) ==> r.effects == es && r.error.Some?)
  {
    var (tokenEffects, access) := TokenStep(oa2, f, now, answer);
    match access
    case Err(e) => Outcome(Some(OAuth2), tokenEffects, Some(e))
    case Ok(accessToken) =>
      match Lookup(userc, "user", "sender")
      case Err(e) => Outcome(Some(OAuth2), tokenEffects, Some(e))
      case Ok(sender) =>
        if !env.useSMTP then Outcome(Some(OAuth2), tokenEffects, Some(SmtplibMissing))
        else
          var session := [Smtp(Connect(PyStr(GmailHost), PyInt(GmailPort))), Smtp(Ehlo), Smtp(StartTls),
                          Smtp(AuthXOAuth2(sender, accessToken))];
          Finish(OAuth2, tokenEffects + session, userc, m)
  }

  /** Lines 252-254: connect to the relay, no authentication. The name
      `smtplib` is looked up before the `relay` key is read. */
  function IspBranch(env: Environment, isp: Section, userc: Section, m: Message): (r: Outcome)
    ensures r.route == Some(IspRelay)
    ensures !env.useSMTP ==> r.effects == [] && r.error == Some(SmtplibMissing)
    ensures env.useSMTP && "relay" !in isp ==> r.effects == [] && r.error == Some(MissingKey("ISP", "relay"))
    ensures r.error.None? ==>
      "relay" in isp && |r.effects| == 3 && r.effects[0] == Smtp(ConnectDefaultPort(isp["relay"]))
    ensures PlainSession(r.effects)
  {
    if !env.useSMTP then Outcome(Some(IspRelay), [], Some(SmtplibMissing))
    else
      match Lookup(isp, "ISP", "relay")
      case Err(e) => Outcome(Some(IspRelay), [], Some(e))
      case Ok(relay) => Finish(IspRelay, [Smtp(ConnectDefaultPort(relay))], userc, m)
  }

  /** Lines 259-265: connect, EHLO, STARTTLS with a second EHLO exactly when
      `starttls` is truthy, then always log in. */
  function SmtpSession(smtpc: Section): (r: (seq<Effect>, Option<SendError>))
    requires ValidateKeys(smtpc, ["server", "port"])
    ensures PlainSession(r.0)
    ensures |r.0| >= 2 && r.0[..2] == [Smtp(Connect(smtpc["server"], smtpc["port"])), Smtp(Ehlo)]
    ensures "starttls" !in smtpc ==> r.1 == Some(MissingKey("smtp", "starttls"))
    ensures r.1.None? ==>
      && "starttls" in smtpc && "username" in smtpc && "password" in smtpc
      && (Smtp(StartTls) in r.0 <==> Truthy(smtpc["starttls"]))
      && (Truthy(smtpc["starttls"]) ==> |r.0| == 5 && r.0[2..4] == [Smtp(StartTls), Smtp(Ehlo)])
      && (!Truthy(smtpc["starttls"]) ==> |r.0| == 3)
      && r.0[|r.0| - 1] == Smtp(Login(smtpc["username"], smtpc["password"]))
  {
    var opening := [Smtp(Connect(smtpc["server"], smtpc["port"])), Smtp(Ehlo)];
    match Lookup(smtpc, "smtp", "starttls")
    case Err(e) => (opening, Some(e))
    case Ok(starttls) =>
      var tls := if Truthy(starttls) then [Smtp(StartTls), Smtp(Ehlo)] else [];
      match Lookup(smtpc, "smtp", "username")
      case Err(e) => (opening + tls, Some(e))
      case Ok(username) =>
        match Lookup(smtpc, "smtp", "password")
        case Err(e) => (opening + tls, Some(e))
        case Ok(password) =>
          var session := opening + tls + [Smtp(Login(username, password))];
          assert Smtp(StartTls) in session <==> Smtp(StartTls) in tls;
          (session, None)
  }

  /** Lines 257-266, then delivery. */
  function SmtpBranch(smtpc: Section, userc: Section, m: Message): (r: Outcome)
    requires ValidateKeys(smtpc, ["server", "port"])
    ensures r.route == Some(Smtplib)
    ensures PlainSession(r.effects)
    ensures var (session, err) := SmtpSession(smtpc);
      |session| <= |r.effects| && r.effects[..|session|] == session
      && (err.Some? ==> r.effects == session && r.error == err)
      && (err.None? ==> r.effects[|session|..] == Deliver(userc, m).0 && r.error == Deliver(userc, m).1)
  {
    var (session, err) := SmtpSession(smtpc);
    if err.Some? then Outcome(Some(Smtplib), session, err)
    else Finish(Smtplib, session, userc, m)
  }

  /** Lines 269-290: write the raw document to the scratch file and run ssmtp
      on it. An exception from the subprocess call is caught and logged, so it
      ends the branch without an error; the scratch file then stays behind. */
  function SsmtpBranch(env: Environment, conf: Config, userc: Section, m: Message): (r: Outcome)
    ensures r.route == Some(Ssmtp)
    ensures !("sender" in userc && "reply-to-name" in userc && "reply-to" in userc) ==>
      r.effects == [] && r.error.Some? && r.error.value.MissingKey?
    ensures "sender" in userc && "reply-to-name" in userc && "reply-to" in userc ==>
      var doc := SsmtpDocument(RawHeaders(m.recipient, userc["sender"], userc["reply-to-name"], userc["reply-to"],
                                          m.subject), m.bodyText);
      && (!IsAscii(doc) ==> r.effects == [] && r.error == Some(NotAscii))
      && (IsAscii(doc) ==> |r.effects| > 0 && r.effects[0] == EmailFileWritten(doc))
      && (IsAscii(doc) && !("ssmtp" in conf && "path" in conf["ssmtp"]) ==> r.effects == [EmailFileWritten(doc)] && r.error.Some?)
      && (IsAscii(doc) && "ssmtp" in conf && "path" in conf["ssmtp"] ==>
            && r.error.None?
            && r.effects == [EmailFileWritten(doc)]
                 + (if env.subprocessImported then [SsmtpRun(conf["ssmtp"]["path"], m.recipient), EmailFileRemoved]
                    else [SubprocessFailed]))
    ensures forall k :: 0 <= k < |r.effects| ==>
      (!r.effects[k].Smtp? && !Is(r.effects[k], RefreshKind) && !Is(r.effects[k], TokenWriteKind))
    ensures (exists k :: 0 <= k < |r.effects| && r.effects[k].SsmtpRun?) ==> env.subprocessImported
  {
    match Lookup(userc, "user", "sender")
    case Err(e) => Outcome(Some(Ssmtp), [], Some(e))
    case Ok(sender) =>
      match Lookup(userc, "user", "reply-to-name")
      case Err(e) => Outcome(Some(Ssmtp), [], Some(e))
      case Ok(replyToName) =>
        match Lookup(userc, "user", "reply-to")
        case Err(e) => Outcome(Some(Ssmtp), [], Some(e))
        case Ok(replyTo) =>
          var doc := SsmtpDocument(RawHeaders(m.recipient, sender, replyToName, replyTo, m.subject), m.bodyText);
          if !IsAscii(doc) then Outcome(Some(Ssmtp), [], Some(NotAscii))
          else WriteAndRun(env, conf, m.recipient, doc)
  }

  /** Lines 277-290: write the document to the scratch file, then look up the
      ssmtp path and run it on the file. */
  function WriteAndRun(env: Environment, conf: Config, recipient: Value, doc: string): (r: Outcome)
    ensures r.route == Some(Ssmtp)
    ensures |r.effects| > 0 && r.effects[0] == EmailFileWritten(doc)
    ensures !("ssmtp" in conf && "path" in conf["ssmtp"]) ==> r.effects == [EmailFileWritten(doc)] && r.error.Some?
    ensures "ssmtp" in conf && "path" in conf["ssmtp"] ==>
      && r.error.None?
      && r.effects == [EmailFileWritten(doc)]
           + (if env.subprocessImported then [SsmtpRun(conf["ssmtp"]["path"], recipient), EmailFileRemoved]
              else [SubprocessFailed])
  {
    var written := [EmailFileWritten(doc)];
    match SectionOf(conf, "ssmtp")
    case Err(e) => Outcome(Some(Ssmtp), written, Some(e))
    case Ok(ssmtpc) =>
      match Lookup(ssmtpc, "ssmtp", "path")
      case Err(e) => Outcome(Some(Ssmtp), written, Some(e))
      case Ok(path) =>
        if env.subprocessImported then
          Outcome(Some(Ssmtp), written + [SsmtpRun(path, recipient), EmailFileRemoved], None)
        else
          Outcome(Some(Ssmtp), written + [SubprocessFailed], None)
  }

  // ---------------------------------------------------------------------------
  // sendEmail

  /** The inputs of the selection chain, once the sections are found. */
  function SituationOf(env: Environment, w: World, oa2: Section, isp: Section, smtpc: Section): Situation
  {
    Situation(ForceIsp(env.opts), env.useOAuth, env.useSMTP, w.tokenFile.Some?, oa2, isp, smtpc)
  }

  /** `sendEmail(recipient, subject, bodytext, bodyhtml)` with the given
      environment. The section lookups of lines 210-213 come first, then the
      chain; each branch runs as above. */
  function SendWith(env: Environment, conf: Config, m0: Message, w: World): (r: Outcome)
    requires ValidInstant(w.now)
    ensures r.route.None? <==> (exists name :: name in ["OAuth2", "ISP", "smtp", "user"] && name !in conf)
    ensures r.route.None? ==> r.effects == [] && r.error.Some? && r.error.value.MissingSection?
    ensures r.route.Some? ==>
      r.route.value == Select(SituationOf(env, w, conf["OAuth2"], conf["ISP"], conf["smtp"]))
  {
    var m := ApplyTestMode(env.opts, m0);
    match SectionOf(conf, "OAuth2")
    case Err(e) => Outcome(None, [], Some(e))
    case Ok(oa2) =>
      match SectionOf(conf, "ISP")
      case Err(e) => Outcome(None, [], Some(e))
      case Ok(isp) =>
        match SectionOf(conf, "smtp")
        case Err(e) => Outcome(None, [], Some(e))
        case Ok(smtpc) =>
          match SectionOf(conf, "user")
          case Err(e) => Outcome(None, [], Some(e))
          case Ok(userc) =>
            var s := SituationOf(env, w, oa2, isp, smtpc);
            match Select(s)
            case OAuth2 => OAuthBranch(env, oa2, userc, m, w.tokenFile.value, w.now, w.answer)
            case IspRelay => IspBranch(env, isp, userc, m)
            case Smtplib => SmtpBranch(smtpc, userc, m)
            case Ssmtp => SsmtpBranch(env, conf, userc, m)
  }

  /** As intended: the ssmtp fallback can always start its subprocess, so the
      failure caught around the subprocess call never happens. */
  function SendEmail(useOAuth: bool, useSMTP: bool, opts: Option<Options>, conf: Config, m: Message, w: World): (r: Outcome)
    requires ValidInstant(w.now)
    ensures r.route == Some(Ssmtp) ==> forall k :: 0 <= k < |r.effects| ==> r.effects[k] != SubprocessFailed
  {
    SendWith(Environment(opts, useOAuth, useSMTP, true), conf, m, w)
  }

  /** The source as written: the name `subprocess` is bound only when neither
      smtplib nor the oauth2 module imported (lines 97-98). It picks the same
      route as the intended call and differs from it only on the ssmtp route
      when one of those modules imported. */
  function SendEmailAsWritten(useOAuth: bool, useSMTP: bool, opts: Option<Options>, conf: Config, m: Message, w: World): (r: Outcome)
    requires ValidInstant(w.now)
    ensures r.route == SendEmail(useOAuth, useSMTP, opts, conf, m, w).route
    ensures r.route != Some(Ssmtp) || (!useOAuth && !useSMTP) ==> r == SendEmail(useOAuth, useSMTP, opts, conf, m, w)
  {
    SendWith(Environment(opts, useOAuth, useSMTP, !useSMTP && !useOAuth), conf, m, w)
  }

  // ---------------------------------------------------------------------------
  // Properties of a whole call

  /** The stored token exists, reads back, and has expired at `now`. */
  predicate RefreshDue(w: World)
  {
    w.tokenFile.Some? && Load(w.tokenFile.value).Ok? && Expired(Load(w.tokenFile.value).value, w.now)
  }

  /** The effects of the OAuth2 branch: one provider call exactly when the
      token is due, a token file write only then, and one AUTH command. */
  lemma OAuthCounts(env: Environment, oa2: Section, userc: Section, m: Message, f: StoredToken,
                    now: int, answer: RefreshAnswer)
    requires ValidInstant(now)
    requires ValidateKeys(oa2, ["client_id", "client_secret"])
    ensures var r := OAuthBranch(env, oa2, userc, m, f, now, answer);
      && Count(r.effects, RefreshKind) == (if Load(f).Ok? && Expired(Load(f).value, now) then 1 else 0)
      && Count(r.effects, TokenWriteKind) <= 1
      && (Count(r.effects, TokenWriteKind) == 1 ==> Load(f).Ok? && Expired(Load(f).value, now))
      && (r.error.None? && Load(f).Ok? && Expired(Load(f).value, now) ==> Count(r.effects, TokenWriteKind) == 1)
      && Count(r.effects, AuthKind) <= 1
      && (r.error.None? ==> Count(r.effects, AuthKind) == 1)
  {
    var r := OAuthBranch(env, oa2, userc, m, f, now, answer);
    var (es, acc) := TokenStep(oa2, f, now, answer);
    TokenStepCounts(oa2, f, now, answer);
    if acc.Ok? && "sender" in userc && env.useSMTP {
      var n := |es| + 4;
      var session := r.effects[|es|..n];
      var tail := r.effects[n..];
      assert r.effects == es + session + tail;
      PlainSessionCounts(tail);
      GmailSessionCounts(userc["sender"], acc.value);
      CountAppend(es + session, tail, RefreshKind);
      CountAppend(es, session, RefreshKind);
      CountAppend(es + session, tail, TokenWriteKind);
      CountAppend(es, session, TokenWriteKind);
      CountAppend(es + session, tail, AuthKind);
      CountAppend(es, session, AuthKind);
    }
  }

  /** The counts of the token step for any answer: one provider call exactly
      when the token is due, and a write only then, always after a success. */
  lemma TokenStepCounts(oa2: Section, f: StoredToken, now: int, answer: RefreshAnswer)
    requires ValidInstant(now)
    requires ValidateKeys(oa2, ["client_id", "client_secret"])
    ensures var (es, r) := TokenStep(oa2, f, now, answer);
      && Count(es, RefreshKind) == (if Load(f).Ok? && Expired(Load(f).value, now) then 1 else 0)
      && Count(es, TokenWriteKind) <= 1
      && (Count(es, TokenWriteKind) == 1 ==> Load(f).Ok? && Expired(Load(f).value, now))
      && (r.Ok? && Load(f).Ok? && Expired(Load(f).value, now) ==> Count(es, TokenWriteKind) == 1)
      && Count(es, AuthKind) == 0
  {
    match answer
    case Granted(resp) =>
      TokenStepAgrees(oa2, f, now, resp);
    case _ =>
      if Load(f).Ok? && Expired(Load(f).value, now) {
        RejectedRefreshTrace(oa2, f, now, answer);
      }
  }

  /** The four commands opening the Gmail session hold one AUTH and nothing
      that touches the provider or the token file. */
  lemma GmailSessionCounts(sender: Value, accessToken: string)
    ensures var session := [Smtp(Connect(PyStr(GmailHost), PyInt(GmailPort))), Smtp(Ehlo), Smtp(StartTls),
                            Smtp(AuthXOAuth2(sender, accessToken))];
      Count(session, RefreshKind) == 0 && Count(session, TokenWriteKind) == 0 && Count(session, AuthKind) == 1
  {
    var opening := [Smtp(Connect(PyStr(GmailHost), PyInt(GmailPort))), Smtp(Ehlo), Smtp(StartTls)];
    var auth := [Smtp(AuthXOAuth2(sender, accessToken))];
    assert Count(opening, AuthKind) == 0;
    assert Count(auth, AuthKind) == 1;
    CountAppend(opening, auth, AuthKind);
    assert opening + auth == [Smtp(Connect(PyStr(GmailHost), PyInt(GmailPort))), Smtp(Ehlo), Smtp(StartTls),
                              Smtp(AuthXOAuth2(sender, accessToken))];
  }

  /** Only the OAuth2 route touches the provider, the token file or the AUTH
      command: the provider is called once exactly when that route is taken
      and the stored token has expired, the file is written at most once and
      only then, and a successful OAuth2 send authenticates exactly once. */
  lemma {:induction false} TokenEffectsOnlyWhenDue(env: Environment, conf: Config, m: Message, w: World)
    requires ValidInstant(w.now)
    ensures var r := SendWith(env, conf, m, w);
      && Count(r.effects, RefreshKind) == (if r.route == Some(OAuth2) && RefreshDue(w) then 1 else 0)
      && Count(r.effects, TokenWriteKind) <= 1
      && (Count(r.effects, TokenWriteKind) == 1 ==> r.route == Some(OAuth2) && RefreshDue(w))
      && (r.route == Some(OAuth2) && RefreshDue(w) && r.error.None? ==> Count(r.effects, TokenWriteKind) == 1)
      && Count(r.effects, AuthKind) <= 1
      && (Count(r.effects, AuthKind) == 1 ==> r.route == Some(OAuth2))
      && (r.route == Some(OAuth2) && r.error.None? ==> Count(r.effects, AuthKind) == 1)
  {
    var r := SendWith(env, conf, m, w);
    if r.route.Some? {
      var s := SituationOf(env, w, conf["OAuth2"], conf["ISP"], conf["smtp"]);
      var m' := ApplyTestMode(env.opts, m);
      match Select(s)
      case OAuth2 =>
        OAuthCounts(env, conf["OAuth2"], conf["user"], m', w.tokenFile.value, w.now, w.answer);
      case IspRelay =>
        PlainSessionCounts(r.effects);
      case Smtplib =>
        PlainSessionCounts(r.effects);
      case Ssmtp =>
        assert forall k :: 0 <= k < |r.effects| ==> !Is(r.effects[k], AuthKind);
    }
  }

  /** Forcing the ISP relay with no `relay` key fails at the key lookup,
      before any connection is made. */
  lemma ForcedIspWithoutRelayFails(env: Environment, conf: Config, m: Message, w: World)
    requires ValidInstant(w.now)
    requires ForceIsp(env.opts) && env.useSMTP
    requires "OAuth2" in conf && "ISP" in conf && "smtp" in conf && "user" in conf
    requires "relay" !in conf["ISP"]
    ensures SendWith(env, conf, m, w) == Outcome(Some(IspRelay), [], Some(MissingKey("ISP", "relay")))
  {
    ForcedIspPicksRelay(SituationOf(env, w, conf["OAuth2"], conf["ISP"], conf["smtp"]));
  }

  /** A call made while the stored token is still valid leaves the token file
      alone and authenticates with the stored access token. */
  lemma ValidTokenNotRewritten(env: Environment, conf: Config, m: Message, w: World)
    requires ValidInstant(w.now)
    requires w.tokenFile.Some? && Load(w.tokenFile.value).Ok? && !Expired(Load(w.tokenFile.value).value, w.now)
    ensures var r := SendWith(env, conf, m, w);
      Count(r.effects, RefreshKind) == 0 && Count(r.effects, TokenWriteKind) == 0
  {
    TokenEffectsOnlyWhenDue(env, conf, m, w);
  }

  /** On the OAuth2 route the call is the OAuth2 branch on the configured sections. */
  lemma OAuthRoute(env: Environment, conf: Config, m: Message, w: World)
    requires ValidInstant(w.now)
    requires SendWith(env, conf, m, w).route == Some(OAuth2)
    ensures "OAuth2" in conf && "ISP" in conf && "smtp" in conf && "user" in conf && w.tokenFile.Some?
    ensures ValidateKeys(conf["OAuth2"], ["client_id", "client_secret"])
    ensures SendWith(env, conf, m, w)
      == OAuthBranch(env, conf["OAuth2"], conf["user"], ApplyTestMode(env.opts, m), w.tokenFile.value, w.now, w.answer)
  {
    assert Select(SituationOf(env, w, conf["OAuth2"], conf["ISP"], conf["smtp"])) == OAuth2;
  }

  /** A successful OAuth2 send connects to Gmail's submission port, says EHLO,
      starts TLS and authenticates as the configured sender with the access
      token the token step settled on: the provider's new one when the stored
      token had expired, the stored one otherwise. */
  lemma {:induction false} OAuthSession(env: Environment, conf: Config, m: Message, w: World)
    requires ValidInstant(w.now)
    requires SendWith(env, conf, m, w).route == Some(OAuth2)
    requires SendWith(env, conf, m, w).error.None?
    ensures w.tokenFile.Some? && Load(w.tokenFile.value).Ok?
    ensures "user" in conf && "sender" in conf["user"]
    ensures Smtp(Connect(PyStr(GmailHost), PyInt(GmailPort))) in SendWith(env, conf, m, w).effects
    ensures Smtp(StartTls) in SendWith(env, conf, m, w).effects
    ensures w.answer.Granted? ==> EnsureFresh(w.tokenFile.value, w.now, w.answer.response).Ok?
    ensures w.answer.Granted? ==>
      Smtp(AuthXOAuth2(conf["user"]["sender"], EnsureFresh(w.tokenFile.value, w.now, w.answer.response).value.access))
      in SendWith(env, conf, m, w).effects
    ensures RefreshDue(w) ==>
      && w.answer.Granted?
      && Smtp(AuthXOAuth2(conf["user"]["sender"], w.answer.response.accessToken)) in SendWith(env, conf, m, w).effects
    ensures !RefreshDue(w) ==>
      Smtp(AuthXOAuth2(conf["user"]["sender"], w.tokenFile.value.access)) in SendWith(env, conf, m, w).effects
  {
    OAuthRoute(env, conf, m, w);
    var f := w.tokenFile.value;
    OAuthBranchSession(env, conf["OAuth2"], conf["user"], ApplyTestMode(env.opts, m), f, w.now, w.answer);
    match w.answer
    case Granted(resp) =>
      TokenStepAgrees(conf["OAuth2"], f, w.now, resp);
    case _ =>
  }

  /** A refresh answer the script cannot read (a revoked refresh token gets
      an error object back) ends the OAuth2 route with the KeyError right
      after the provider call: the token file is not rewritten, and no SMTP
      connection is opened, so nothing is authenticated or sent. */
  lemma RejectedRefreshSendsNothing(env: Environment, conf: Config, m: Message, w: World)
    requires ValidInstant(w.now)
    requires SendWith(env, conf, m, w).route == Some(OAuth2)
    requires RefreshDue(w) && !w.answer.Granted?
    ensures "OAuth2" in conf && "client_id" in conf["OAuth2"] && "client_secret" in conf["OAuth2"]
    ensures var r := SendWith(env, conf, m, w);
      && r.error == Some(TokenFailure(AnswerLacks(if w.answer.LacksAccessToken? then "access_token" else "expires_in")))
      && r.effects == [RefreshCall(conf["OAuth2"]["client_id"], conf["OAuth2"]["client_secret"], w.tokenFile.value.refresh)]
  {
    OAuthRoute(env, conf, m, w);
    RejectedRefreshTrace(conf["OAuth2"], w.tokenFile.value, w.now, w.answer);
  }

  /** A successful OAuth2 branch settled on an access token and issued the
      Gmail connection, STARTTLS and the AUTH command with that token. */
  lemma OAuthBranchSession(env: Environment, oa2: Section, userc: Section, m: Message, f: StoredToken,
                           now: int, answer: RefreshAnswer)
    requires ValidInstant(now)
    requires ValidateKeys(oa2, ["client_id", "client_secret"])
    requires OAuthBranch(env, oa2, userc, m, f, now, answer).error.None?
    ensures TokenStep(oa2, f, now, answer).1.Ok? && "sender" in userc
    ensures var es := OAuthBranch(env, oa2, userc, m, f, now, answer).effects;
      && Smtp(Connect(PyStr(GmailHost), PyInt(GmailPort))) in es
      && Smtp(StartTls) in es
      && Smtp(AuthXOAuth2(userc["sender"], TokenStep(oa2, f, now, answer).1.value)) in es
  {
    var r := OAuthBranch(env, oa2, userc, m, f, now, answer);
    var (es, acc) := TokenStep(oa2, f, now, answer);
    assert acc.Ok? && "sender" in userc && env.useSMTP;
    var session := r.effects[|es|..|es| + 4];
    assert session[0] == r.effects[|es|];
    assert session[2] == r.effects[|es| + 2];
    assert session[3] == r.effects[|es| + 3];
  }

  /** A successful smtplib send starts TLS exactly when `starttls` is truthy,
      and logs in with the configured credentials right before delivering. */
  lemma {:induction false} SmtplibSession(env: Environment, conf: Config, m: Message, w: World)
    requires ValidInstant(w.now)
    requires SendWith(env, conf, m, w).route == Some(Smtplib)
    requires SendWith(env, conf, m, w).error.None?
    ensures "smtp" in conf && "starttls" in conf["smtp"] && "username" in conf["smtp"] && "password" in conf["smtp"]
    ensures Smtp(StartTls) in SendWith(env, conf, m, w).effects <==> Truthy(conf["smtp"]["starttls"])
    ensures var es := SendWith(env, conf, m, w).effects;
      |es| >= 3 && es[|es| - 3] == Smtp(Login(conf["smtp"]["username"], conf["smtp"]["password"]))
  {
    var r := SendWith(env, conf, m, w);
    var smtpc, userc := conf["smtp"], conf["user"];
    var m' := ApplyTestMode(env.opts, m);
    var s := SituationOf(env, w, conf["OAuth2"], conf["ISP"], smtpc);
    assert Select(s) == Smtplib;
    assert r == SmtpBranch(smtpc, userc, m');
    var (session, err) := SmtpSession(smtpc);
    assert err.None?;
    var d := Deliver(userc, m').0;
    assert r.effects == session + d;
    assert Smtp(StartTls) !in d;
    assert Smtp(StartTls) in r.effects <==> Smtp(StartTls) in session;
  }

  /** A successful delivery over any SMTP route ends with SENDMAIL from the
      configured sender to the recipient, carrying the subject and the parts
      of the message after the test-mode override, then closes the session. */
  lemma {:induction false} DeliveryEndsSession(env: Environment, conf: Config, m: Message, w: World)
    requires ValidInstant(w.now)
    requires SendWith(env, conf, m, w).route.Some? && SendWith(env, conf, m, w).route != Some(Ssmtp)
    requires SendWith(env, conf, m, w).error.None?
    ensures "user" in conf && "sender" in conf["user"]
    ensures var es := SendWith(env, conf, m, w).effects;
      var sent := ApplyTestMode(env.opts, m);
      && |es| >= 2 && es[|es| - 1] == Smtp(Close)
      && es[|es| - 2].Smtp? && es[|es| - 2].command.SendMail?
      && es[|es| - 2].command.from == conf["user"]["sender"]
      && es[|es| - 2].command.to == sent.recipient
      && es[|es| - 2].command.message.subject == sent.subject
      && es[|es| - 2].command.message.parts == Parts(sent.bodyText, sent.bodyHtml)
    ensures var userc, es := conf["user"], SendWith(env, conf, m, w).effects;
      && "sender-name" in userc && "reply-to-name" in userc && "reply-to" in userc
      && |es| >= 2 && es[|es| - 2].Smtp? && es[|es| - 2].command.SendMail?
      && es[|es| - 2].command.message.from == ToStr(userc["sender-name"]) + " <" + ToStr(userc["sender"]) + ">"
      && es[|es| - 2].command.message.replyTo == ToStr(userc["reply-to-name"]) + " <" + ToStr(userc["reply-to"]) + ">"
      && es[|es| - 2].command.message.to == ApplyTestMode(env.opts, m).recipient
  {
    var r := SendWith(env, conf, m, w);
    var userc := conf["user"];
    var m' := ApplyTestMode(env.opts, m);
    var s := SituationOf(env, w, conf["OAuth2"], conf["ISP"], conf["smtp"]);
    var d := Deliver(userc, m');
    match Select(s)
    case OAuth2 =>
      var rb := OAuthBranch(env, conf["OAuth2"], userc, m', w.tokenFile.value, w.now, w.answer);
      assert r == rb;
      var session := rb.effects[..|rb.effects| - 2];
      assert rb.effects[|rb.effects| - 2..] == d.0;
    case IspRelay =>
      assert r == IspBranch(env, conf["ISP"], userc, m');
      assert r.effects[1..] == d.0;
    case Smtplib =>
      assert r == SmtpBranch(conf["smtp"], userc, m');
      var session := SmtpSession(conf["smtp"]).0;
      assert r.effects[|session|..] == d.0;
  }

  /** In test mode a successful SMTP delivery carries the fixed test subject
      and the fixed test text as its first part, whatever the caller passed. */
  lemma TestModeSendsTestText(env: Environment, conf: Config, m: Message, w: World)
    requires ValidInstant(w.now)
    requires TestMode(env.opts)
    requires SendWith(env, conf, m, w).route.Some? && SendWith(env, conf, m, w).route != Some(Ssmtp)
    requires SendWith(env, conf, m, w).error.None?
    ensures var es := SendWith(env, conf, m, w).effects;
      && |es| >= 2 && es[|es| - 2].Smtp? && es[|es| - 2].command.SendMail?
      && es[|es| - 2].command.message.subject == PyStr(TestSubject)
      && es[|es| - 2].command.message.parts[0] == Part(TestBody, "plain")
  {
    DeliveryEndsSession(env, conf, m, w);
  }

  /** The raw document the ssmtp route writes, after the test-mode override. */
  function SsmtpDocumentOf(env: Environment, userc: Section, m: Message): string
    requires "sender" in userc && "reply-to-name" in userc && "reply-to" in userc
  {
    var sent := ApplyTestMode(env.opts, m);
    SsmtpDocument(RawHeaders(sent.recipient, userc["sender"], userc["reply-to-name"], userc["reply-to"], sent.subject),
                  sent.bodyText)
  }

  /** As intended, a successful ssmtp call writes the document, runs ssmtp
      with the recipient, and removes the scratch file, and nothing else. */
  lemma {:induction false} SsmtpDelivers(useOAuth: bool, useSMTP: bool, opts: Option<Options>, conf: Config, m: Message, w: World)
    requires ValidInstant(w.now)
    requires SendEmail(useOAuth, useSMTP, opts, conf, m, w).route == Some(Ssmtp)
    requires SendEmail(useOAuth, useSMTP, opts, conf, m, w).error.None?
    ensures "user" in conf && "sender" in conf["user"] && "reply-to-name" in conf["user"] && "reply-to" in conf["user"]
    ensures "ssmtp" in conf && "path" in conf["ssmtp"]
    ensures var env := Environment(opts, useOAuth, useSMTP, true);
      SendEmail(useOAuth, useSMTP, opts, conf, m, w).effects
        == [EmailFileWritten(SsmtpDocumentOf(env, conf["user"], m)),
            SsmtpRun(conf["ssmtp"]["path"], ApplyTestMode(opts, m).recipient),
            EmailFileRemoved]
  {
    var env := Environment(opts, useOAuth, useSMTP, true);
    var s := SituationOf(env, w, conf["OAuth2"], conf["ISP"], conf["smtp"]);
    assert Select(s) == Ssmtp;
    assert SendEmail(useOAuth, useSMTP, opts, conf, m, w) == SsmtpBranch(env, conf, conf["user"], ApplyTestMode(opts, m));
  }

  /** As written, whenever smtplib or the oauth2 module imported, the ssmtp
      route never runs ssmtp nor removes the scratch file. When the `user`
      keys and the ssmtp path are present and the document is ASCII, the
      subprocess call fails on the unbound name, the failure is swallowed and
      no error reaches the caller: only the scratch file was written. */
  lemma {:induction false} SsmtpNeverRunsAsWritten(useOAuth: bool, useSMTP: bool, opts: Option<Options>, conf: Config, m: Message, w: World)
    requires ValidInstant(w.now)
    requires useOAuth || useSMTP
    requires SendEmailAsWritten(useOAuth, useSMTP, opts, conf, m, w).route == Some(Ssmtp)
    ensures "user" in conf
    ensures var r := SendEmailAsWritten(useOAuth, useSMTP, opts, conf, m, w);
      && (forall k :: 0 <= k < |r.effects| ==> !r.effects[k].SsmtpRun? && r.effects[k] != EmailFileRemoved)
      && (r.error.None? ==> r.effects[|r.effects| - 1] == SubprocessFailed)
    ensures var userc, env := conf["user"], Environment(opts, useOAuth, useSMTP, false);
      "sender" in userc && "reply-to-name" in userc && "reply-to" in userc
      && IsAscii(SsmtpDocumentOf(env, userc, m)) && "ssmtp" in conf && "path" in conf["ssmtp"] ==>
        var r := SendEmailAsWritten(useOAuth, useSMTP, opts, conf, m, w);
        r.error.None? && r.effects == [EmailFileWritten(SsmtpDocumentOf(env, userc, m)), SubprocessFailed]
  {
    var env := Environment(opts, useOAuth, useSMTP, !useSMTP && !useOAuth);
    var s := SituationOf(env, w, conf["OAuth2"], conf["ISP"], conf["smtp"]);
    assert Select(s) == Ssmtp;
    assert SendEmailAsWritten(useOAuth, useSMTP, opts, conf, m, w) == SsmtpBranch(env, conf, conf["user"], ApplyTestMode(opts, m));
    SsmtpBranchWithoutSubprocess(env, conf, conf["user"], ApplyTestMode(opts, m));
  }

  /** Without `subprocess` the ssmtp branch never runs ssmtp nor removes the
      file, a call that returns normally ends with the swallowed failure, and
      with every key present and an ASCII document it returns normally. */
  lemma SsmtpBranchWithoutSubprocess(env: Environment, conf: Config, userc: Section, m: Message)
    requires !env.subprocessImported
    ensures var r := SsmtpBranch(env, conf, userc, m);
      && (forall k :: 0 <= k < |r.effects| ==> !r.effects[k].SsmtpRun? && r.effects[k] != EmailFileRemoved)
      && (r.error.None? ==> r.effects[|r.effects| - 1] == SubprocessFailed)
    ensures "sender" in userc && "reply-to-name" in userc && "reply-to" in userc ==>
      var doc := SsmtpDocument(RawHeaders(m.recipient, userc["sender"], userc["reply-to-name"], userc["reply-to"],
                                          m.subject), m.bodyText);
      IsAscii(doc) && "ssmtp" in conf && "path" in conf["ssmtp"] ==>
        SsmtpBranch(env, conf, userc, m) == Outcome(Some(Ssmtp), [EmailFileWritten(doc), SubprocessFailed], None)
  {
    var r := SsmtpBranch(env, conf, userc, m);
    if "sender" in userc && "reply-to-name" in userc && "reply-to" in userc {
      var doc := SsmtpDocument(RawHeaders(m.recipient, userc["sender"], userc["reply-to-name"], userc["reply-to"],
                                          m.subject), m.bodyText);
      if IsAscii(doc) && "ssmtp" in conf && "path" in conf["ssmtp"] {
        assert r.effects == [EmailFileWritten(doc), SubprocessFailed];
      }
    }
  }

  /** A concrete configuration showing it: smtplib imported (as it always does,
      being part of the standard library), oauth2 did not, no relay and no
      smtp server configured. The call returns without error, yet only the
      scratch file was written. */
  lemma SsmtpScenarioAsWritten()
    ensures var asWritten := SendEmailAsWritten(false, true, None, ScenarioConf, ScenarioMessage, ScenarioWorld);
      var intended := SendEmail(false, true, None, ScenarioConf, ScenarioMessage, ScenarioWorld);
      && asWritten.route == Some(Ssmtp) && asWritten.error.None?
      && |asWritten.effects| == 2 && asWritten.effects[1] == SubprocessFailed
      && intended.route == Some(Ssmtp) && intended.error.None?
      && |intended.effects| == 3 && intended.effects[1] == SsmtpRun(PyStr("/usr/sbin/ssmtp"), PyStr("a@example.com"))
  {
    ScenarioRoutes();
    ScenarioBranches();
  }

  const ScenarioUser: Section :=
    map["sender" := PyStr("me@example.com"), "reply-to-name" := PyStr("Me"), "reply-to" := PyStr("me@example.com")]
  const ScenarioConf: Config :=
    map["OAuth2" := map[], "ISP" := map["relay" := PyNone], "smtp" := map[],
        "user" := ScenarioUser, "ssmtp" := map["path" := PyStr("/usr/sbin/ssmtp")]]
  const ScenarioMessage: Message := Message(PyStr("a@example.com"), PyStr("Hi"), PyStr("Hello"), PyNone)
  const ScenarioWorld: World := World(None, 0, LacksAccessToken)

  /** In the scenario both versions of `sendEmail` end up in the ssmtp branch;
      they differ only in whether `subprocess` is bound. */
  lemma ScenarioRoutes()
    ensures SendEmailAsWritten(false, true, None, ScenarioConf, ScenarioMessage, ScenarioWorld)
      == SsmtpBranch(Environment(None, false, true, false), ScenarioConf, ScenarioUser, ScenarioMessage)
    ensures SendEmail(false, true, None, ScenarioConf, ScenarioMessage, ScenarioWorld)
      == SsmtpBranch(Environment(None, false, true, true), ScenarioConf, ScenarioUser, ScenarioMessage)
  {
    var conf := ScenarioConf;
    var m := ScenarioMessage;
    var w := ScenarioWorld;
    assert ApplyTestMode(None, m) == m;
    var s := SituationOf(Environment(None, false, true, false), w, conf["OAuth2"], conf["ISP"], conf["smtp"]);
    assert !ValidateKeys(conf["ISP"], ["relay"]) by { NoneValueRejects(conf["ISP"], ["relay"], "relay"); }
    assert Select(s) == Ssmtp;
    assert SituationOf(Environment(None, false, true, true), w, conf["OAuth2"], conf["ISP"], conf["smtp"]) == s;
  }

  /** The ssmtp branch in the scenario: the document is ASCII and is written;
      without `subprocess` nothing runs, with it ssmtp runs and the file is
      removed. */
  lemma ScenarioBranches()
    ensures var doc := SsmtpDocument(ScenarioHeaders, PyStr("Hello"));
      && SsmtpBranch(Environment(None, false, true, false), ScenarioConf, ScenarioUser, ScenarioMessage)
           == Outcome(Some(Ssmtp), [EmailFileWritten(doc), SubprocessFailed], None)
      && SsmtpBranch(Environment(None, false, true, true), ScenarioConf, ScenarioUser, ScenarioMessage)
           == Outcome(Some(Ssmtp), [EmailFileWritten(doc), SsmtpRun(PyStr("/usr/sbin/ssmtp"), PyStr("a@example.com")),
                                    EmailFileRemoved], None)
  {
    ScenarioBranch(Environment(None, false, true, false));
    ScenarioBranch(Environment(None, false, true, true));
  }

  const ScenarioHeaders: RawHeaders :=
    RawHeaders(PyStr("a@example.com"), PyStr("me@example.com"), PyStr("Me"), PyStr("me@example.com"), PyStr("Hi"))

  lemma ScenarioBranch(env: Environment)
    ensures SsmtpBranch(env, ScenarioConf, ScenarioUser, ScenarioMessage)
      == Outcome(Some(Ssmtp), [EmailFileWritten(SsmtpDocument(ScenarioHeaders, PyStr("Hello")))]
                 + (if env.subprocessImported then [SsmtpRun(PyStr("/usr/sbin/ssmtp"), PyStr("a@example.com")), EmailFileRemoved]
                    else [SubprocessFailed]), None)
  {
    var user := ScenarioUser;
    var m := ScenarioMessage;
    assert "sender" in user && "reply-to-name" in user && "reply-to" in user;
    assert RawHeaders(m.recipient, user["sender"], user["reply-to-name"], user["reply-to"], m.subject) == ScenarioHeaders;
    assert m.bodyText == PyStr("Hello");
    ScenarioDocumentAscii();
    assert "ssmtp" in ScenarioConf && "path" in ScenarioConf["ssmtp"];
    assert ScenarioConf["ssmtp"]["path"] == PyStr("/usr/sbin/ssmtp");
  }

  lemma ScenarioDocumentAscii()
    ensures IsAscii(SsmtpDocument(ScenarioHeaders, PyStr("Hello")))
  {
    assert IsAscii("a@example.com") && IsAscii("me@example.com") && IsAscii("Me") && IsAscii("Hi") && IsAscii("Hello");
    DocumentAscii(ScenarioHeaders, PyStr("Hello"));
  }
}

=== FILE: text.dfy ===
/** The Python 2 byte-string operations the script relies on: `strip()`,
    `lower()`, the `'y' in ...` test, the ASCII check of `encode('ascii')`,
    and splitting a document into `\n`-separated lines. */
module Text {

  /** C `isspace` in the default locale: what `str.strip()` removes. */
  predicate IsSpace(c: char)
  {
    c == ' ' || c == '\t' || c == '\n' || c == '\r' || c as int == 11 || c as int == 12
  }

  /** A line that `strip()` reduces to the empty string. */
  predicate IsBlank(s: string)
  {
    forall k :: 0 <= k < |s| ==> IsSpace(s[k])
  }

  /** The first index at or after `i` that does not hold white space. */
  function SkipSpace(s: string, i: nat): (r: nat)
    requires i <= |s|
    ensures i <= r <= |s|
    ensures forall k :: i <= k < r ==> IsSpace(s[k])
    ensures r == |s| || !IsSpace(s[r])
    decreases |s| - i
  {
    if i < |s| && IsSpace(s[i]) then SkipSpace(s, i + 1) else i
  }

  /** The end, between `i` and `j`, of `s[i..j]` with trailing white space cut. */
  function TrimSpace(s: string, i: nat, j: nat): (r: nat)
    requires i <= j <= |s|
    ensures i <= r <= j
    ensures forall k :: r <= k < j ==> IsSpace(s[k])
    ensures r == i || !IsSpace(s[r - 1])
    decreases j
  {
    if i < j && IsSpace(s[j - 1]) then TrimSpace(s, i, j - 1) else j
  }

  /** Where `strip()` cuts `s`: all white space before the first index and
      from the second on, and the slice between starts and ends with a
      character that is not white space, unless it is empty. */
  function StripBounds(s: string): (b: (nat, nat))
    ensures b.0 <= b.1 <= |s|
    ensures forall k :: 0 <= k < b.0 ==> IsSpace(s[k])
    ensures forall k :: b.1 <= k < |s| ==> IsSpace(s[k])
    ensures b.0 < b.1 ==> !IsSpace(s[b.0]) && !IsSpace(s[b.1 - 1])
    ensures b.0 == b.1 <==> IsBlank(s)
  {
    var i := SkipSpace(s, 0);
    (i, TrimSpace(s, i, |s|))
  }

  /** `s.strip()`: the longest slice of `s` that neither starts nor ends
      with white space, everything cut off on either side being white space. */
  function Strip(s: string): (r: string)
    ensures exists i, j :: (0 <= i <= j <= |s| && r == s[i..j]
      && (forall k :: 0 <= k < i ==> IsSpace(s[k]))
      && (forall k :: j <= k < |s| ==> IsSpace(s[k])))
    ensures r == [] || (!IsSpace(r[0]) && !IsSpace(r[|r| - 1]))
    ensures r == [] <==> IsBlank(s)
  {
    var b := StripBounds(s);
    s[b.0..b.1]
  }

  /** Stripping keeps every character that is not white space. */
  lemma StripKeeps(s: string, c: char)
    requires !IsSpace(c)
    ensures c in Strip(s) <==> c in s
  {
    var (i, j) := StripBounds(s);
    var r := s[i..j];
    if c in r {
      var k :| 0 <= k < |r| && r[k] == c;
      assert s[i + k] == c;
    }
    if c in s {
      var k :| 0 <= k < |s| && s[k] == c;
      assert i <= k < j;
      assert r[k - i] == c;
    }
  }

  /** Stripping is idempotent. */
  lemma StripIdempotent(s: string)
    ensures Strip(Strip(s)) == Strip(s)
  {
    var r := Strip(s);
    var (i, j) := StripBounds(r);
    if r != [] {
      assert !IsSpace(r[0]) && !IsSpace(r[|r| - 1]);
      assert i == 0 && j == |r|;
    }
  }

  /** ASCII `lower()` of one character. */
  function LowerChar(c: char): char
  {
    if 'A' <= c <= 'Z' then (c as int + 32) as char else c
  }

  function Lower(s: string): (r: string)
    ensures |r| == |s|
    ensures forall k :: 0 <= k < |s| ==> r[k] == LowerChar(s[k])
  {
    seq(|s|, k requires 0 <= k < |s| => LowerChar(s[k]))
  }

  /** The wizard's yes test `'y' in r.lower()` holds exactly when the line has a
      `y` or a `Y` anywhere. */
  lemma YesTest(s: string)
    ensures 'y' in Lower(s) <==> 'y' in s || 'Y' in s
  {
    if 'y' in Lower(s) {
      var k :| 0 <= k < |s| && Lower(s)[k] == 'y';
      assert s[k] == 'y' || s[k] == 'Y';
    }
    if 'y' in s {
      var k :| 0 <= k < |s| && s[k] == 'y';
      assert Lower(s)[k] == 'y';
    } else if 'Y' in s {
      var k :| 0 <= k < |s| && s[k] == 'Y';
      assert Lower(s)[k] == 'y';
    }
  }

  /** `encode('ascii')` succeeds exactly on documents of 7-bit characters. */
  predicate IsAscii(s: string)
  {
    forall k :: 0 <= k < |s| ==> s[k] as int < 128
  }

  /** A concatenation is ASCII exactly when both parts are. */
  lemma AsciiConcat(a: string, b: string)
    ensures IsAscii(a + b) <==> IsAscii(a) && IsAscii(b)
  {
    if IsAscii(a + b) {
      assert forall k :: 0 <= k < |a| ==> a[k] == (a + b)[k];
      assert forall k :: 0 <= k < |b| ==> b[k] == (a + b)[|a| + k];
    }
  }

  /** `s.split('\n')`, with `cur` the part of the current line already read. */
  function LinesFrom(s: string, cur: string): (r: seq<string>)
    ensures |r| > 0
    decreases |s|
  {
    if |s| == 0 then [cur]
    else if s[0] == '\n' then [cur] + LinesFrom(s[1..], [])
    else LinesFrom(s[1..], cur + [s[0]])
  }

  function Lines(s: string): seq<string>
  {
    LinesFrom(s, [])
  }

  /** Splitting at one `\n` splits the two sides independently. */
  lemma {:induction false} LinesFromJoin(a: string, b: string, cur: string)
    ensures LinesFrom(a + "\n" + b, cur) == LinesFrom(a, cur) + LinesFrom(b, [])
    decreases |a|
  {
    var s := a + "\n" + b;
    if |a| == 0 {
      assert s == "\n" + b;
      assert s[1..] == b;
    } else {
      assert s[0] == a[0];
      assert s[1..] == a[1..] + "\n" + b;
      if a[0] == '\n' {
        LinesFromJoin(a[1..], b, []);
      } else {
        LinesFromJoin(a[1..], b, cur + [a[0]]);
      }
    }
  }

  /** The lines of `a + "\n" + b` are the lines of `a` followed by those of `b`. */
  lemma LinesJoin(a: string, b: string)
    ensures Lines(a + "\n" + b) == Lines(a) + Lines(b)
  {
    LinesFromJoin(a, b, []);
  }

  /** A newline-free string is a single line. */
  lemma {:induction false} LinesSingle(a: string)
    requires '\n' !in a
    ensures Lines(a) == [a]
  {
    LinesFromNoNewline(a, []);
    assert [] + a == a;
  }

  lemma {:induction false} LinesFromNoNewline(a: string, cur: string)
    requires '\n' !in a
    ensures LinesFrom(a, cur) == [cur + a]
    decreases |a|
  {
    if |a| == 0 {
      assert cur + a == cur;
    } else {
      assert forall c :: c in a[1..] ==> c in a;
      LinesFromNoNewline(a[1..], cur + [a[0]]);
      assert cur + [a[0]] + a[1..] == cur + a;
    }
  }
}

=== FILE: timestamp.dfy ===
/** Expiry timestamps of the OAuth2 token file.

    Python's `datetime` is modelled as an instant: microseconds since
    0001-01-01 00:00:00, the value of `datetime.min`, up to the end of year
    9999 (`datetime.max`). The token file holds the instant as text in the
    format `%Y-%m-%d %H:%M:%S`: `DateEncoder.default` writes it with
    `strftime` and `sendEmail` reads it back with `strptime`. Microseconds are
    lost on the way. */
module Timestamp {
  import opened Py

  const MicrosPerSecond: int := 1_000_000
  const SecondsPerDay: int := 86400
  const MinYear: int := 1
  const MaxYear: int := 9999
  /** Python 2's `strftime` refuses years before this one. */
  const StrftimeMinYear: int := 1900

  predicate IsLeap(y: int)
  {
    y % 4 == 0 && (y % 100 != 0 || y % 400 == 0)
  }

  function DaysInYear(y: int): int
  {
    if IsLeap(y) then 366 else 365
  }

  /** Days from 0001-01-01 to January 1st of year `y`. */
  function DaysBeforeYear(y: int): nat
    requires y >= MinYear
    decreases y
  {
    if y == MinYear then 0 else DaysBeforeYear(y - 1) + DaysInYear(y - 1)
  }

  function DaysInMonth(y: int, m: int): int
    requires 1 <= m <= 12
  {
    if m == 2 then (if IsLeap(y) then 29 else 28)
    else if m == 4 || m == 6 || m == 9 || m == 11 then 30
    else 31
  }

  /** Days from January 1st to the first day of month `m` of year `y`. */
  function DaysBeforeMonth(y: int, m: int): int
    requires 1 <= m <= 12
  {
    (if m == 1 then 0 else if m == 2 then 31 else if m == 3 then 59
     else if m == 4 then 90 else if m == 5 then 120 else if m == 6 then 151
     else if m == 7 then 181 else if m == 8 then 212 else if m == 9 then 243
     else if m == 10 then 273 else if m == 11 then 304 else 334)
    + (if m > 2 && IsLeap(y) then 1 else 0)
  }

  /** Number of days `datetime` can represent. */
  const DayLimit: nat := DaysBeforeYear(MaxYear + 1)

  /** Instants strictly below this one are representable. */
  const InstantLimit: int := DayLimit * SecondsPerDay * MicrosPerSecond

  predicate ValidInstant(t: int)
  {
    0 <= t < InstantLimit
  }

  /** `t` truncated to whole seconds. */
  function WholeSeconds(t: int): int
  {
    t - t % MicrosPerSecond
  }

  /** A civil date and time at one-second resolution. */
  datatype DateTime = DateTime(year: int, month: int, day: int, hour: int, minute: int, second: int)

  predicate ValidDateTime(d: DateTime)
  {
    && MinYear <= d.year <= MaxYear
    && 1 <= d.month <= 12
    && 1 <= d.day <= DaysInMonth(d.year, d.month)
    && 0 <= d.hour < 24
    && 0 <= d.minute < 60
    && 0 <= d.second < 60
  }

  // ---------------------------------------------------------------------------
  // Calendar facts

  lemma {:induction false} DaysBeforeYearMonotone(a: int, b: int)
    requires MinYear <= a <= b
    ensures DaysBeforeYear(a) <= DaysBeforeYear(b)
    decreases b - a
  {
    if a < b {
      DaysBeforeYearMonotone(a, b - 1);
    }
  }

  lemma MonthStep(y: int, m: int)
    requires 1 <= m <= 12
    ensures m < 12 ==> DaysBeforeMonth(y, m + 1) == DaysBeforeMonth(y, m) + DaysInMonth(y, m)
    ensures m == 12 ==> DaysBeforeMonth(y, m) + DaysInMonth(y, m) == DaysInYear(y)
    ensures DaysBeforeMonth(y, 1) == 0
  {
  }

  lemma {:induction false} DaysBeforeMonthMonotone(y: int, a: int, b: int)
    requires 1 <= a <= b <= 12
    ensures DaysBeforeMonth(y, a) <= DaysBeforeMonth(y, b)
    decreases b - a
  {
    if a < b {
      MonthStep(y, b - 1);
      DaysBeforeMonthMonotone(y, a, b - 1);
    }
  }

  // ---------------------------------------------------------------------------
  // Day number <-> date

  /** `n` days after January 1st of year `y`, as a year and a day of that year. */
  function YearSearch(n: nat, y: int): (r: (int, nat))
    requires y >= MinYear
    ensures r.0 >= y && r.1 < DaysInYear(r.0)
    ensures DaysBeforeYear(r.0) + r.1 == DaysBeforeYear(y) + n
    decreases n
  {
    if n < DaysInYear(y) then (y, n) else YearSearch(n - DaysInYear(y), y + 1)
  }

  /** The month holding day `doy` (0-based) of year `y`, searching down from month `m`. */
  function MonthSearch(y: int, doy: int, m: int): (r: int)
    requires 1 <= m <= 12 && 0 <= doy
    requires m < 12 ==> doy < DaysBeforeMonth(y, m + 1)
    requires m == 12 ==> doy < DaysInYear(y)
    ensures 1 <= r <= m
    ensures DaysBeforeMonth(y, r) <= doy < DaysBeforeMonth(y, r) + DaysInMonth(y, r)
    decreases m
  {
    MonthStep(y, m);
    if DaysBeforeMonth(y, m) <= doy then m else MonthSearch(y, doy, m - 1)
  }

  /** Days from 0001-01-01 to the given date; 0-based (`date.toordinal() - 1`). */
  function DayNumber(y: int, m: int, d: int): int
    requires MinYear <= y && 1 <= m <= 12
  {
    DaysBeforeYear(y) + DaysBeforeMonth(y, m) + d - 1
  }

  /** The date `n` days after 0001-01-01, as (year, month, day). */
  function DateOfDay(n: nat): (r: (int, int, int))
    requires n < DayLimit
    ensures MinYear <= r.0 <= MaxYear && 1 <= r.1 <= 12 && 1 <= r.2 <= DaysInMonth(r.0, r.1)
    ensures DayNumber(r.0, r.1, r.2) == n
  {
    var (y, doy) := YearSearch(n, MinYear);
    YearBound(y, n);
    var m := MonthSearch(y, doy, 12);
    (y, m, doy - DaysBeforeMonth(y, m) + 1)
  }

  lemma YearBound(y: int, n: nat)
    requires MinYear <= y && DaysBeforeYear(y) <= n < DayLimit
    ensures y <= MaxYear
  {
    if y > MaxYear {
      DaysBeforeYearMonotone(MaxYear + 1, y);
    }
  }

  /** Two (year, day-of-year) splits of the same day number are the same split. */
  lemma YearSplitUnique(y1: int, r1: int, y2: int, r2: int)
    requires MinYear <= y1 && MinYear <= y2
    requires 0 <= r1 < DaysInYear(y1) && 0 <= r2 < DaysInYear(y2)
    requires DaysBeforeYear(y1) + r1 == DaysBeforeYear(y2) + r2
    ensures y1 == y2 && r1 == r2
  {
    if y1 < y2 {
      YearSplitBefore(y1, r1, y2, r2);
    } else if y2 < y1 {
      YearSplitBefore(y2, r2, y1, r1);
    }
  }

  /** A day inside an earlier year comes before any day of a later one. */
  lemma YearSplitBefore(y1: int, r1: int, y2: int, r2: int)
    requires MinYear <= y1 < y2
    requires 0 <= r1 < DaysInYear(y1) && 0 <= r2
    ensures DaysBeforeYear(y1) + r1 < DaysBeforeYear(y2) + r2
  {
    assert DaysBeforeYear(y1 + 1) == DaysBeforeYear(y1) + DaysInYear(y1);
    DaysBeforeYearMonotone(y1 + 1, y2);
  }

  lemma MonthSplitUnique(y: int, m1: int, m2: int, doy: int)
    requires 1 <= m1 <= 12 && 1 <= m2 <= 12
    requires DaysBeforeMonth(y, m1) <= doy < DaysBeforeMonth(y, m1) + DaysInMonth(y, m1)
    requires DaysBeforeMonth(y, m2) <= doy < DaysBeforeMonth(y, m2) + DaysInMonth(y, m2)
    ensures m1 == m2
  {
    if m1 < m2 {
      MonthStep(y, m1);
      DaysBeforeMonthMonotone(y, m1 + 1, m2);
    } else if m2 < m1 {
      MonthStep(y, m2);
      DaysBeforeMonthMonotone(y, m2 + 1, m1);
    }
  }

  /** Every valid date has a day number below the limit, and it maps back to the date. */
  lemma DateOfDayNumber(y: int, m: int, d: int)
    requires MinYear <= y <= MaxYear && 1 <= m <= 12 && 1 <= d <= DaysInMonth(y, m)
    ensures 0 <= DayNumber(y, m, d) < DayLimit
    ensures DateOfDay(DayNumber(y, m, d)) == (y, m, d)
  {
    var n := DayNumber(y, m, d);
    var doy := DaysBeforeMonth(y, m) + d - 1;
    MonthStep(y, m);
    MonthStep(y, 12);
    DaysBeforeMonthMonotone(y, m, 12);
    assert doy < DaysInYear(y);
    DaysBeforeYearMonotone(y + 1, MaxYear + 1);
    assert n < DayLimit;
    var (y2, doy2) := YearSearch(n, MinYear);
    YearSplitUnique(y, doy, y2, doy2);
    var m2 := MonthSearch(y, doy, 12);
    MonthSplitUnique(y, m, m2, doy);
  }

  // ---------------------------------------------------------------------------
  // Instant <-> civil time

  /** `datetime(y, m, d, H, M, S)` as an instant. */
  function ToInstant(d: DateTime): int
    requires ValidDateTime(d)
  {
    ((DayNumber(d.year, d.month, d.day) * 24 + d.hour) * 60 + d.minute) * 60 * MicrosPerSecond
      + d.second * MicrosPerSecond
  }

  /** The civil fields of an instant, microseconds dropped. */
  function ToDateTime(t: int): (d: DateTime)
    requires ValidInstant(t)
    ensures ValidDateTime(d)
  {
    var secs := t / MicrosPerSecond;
    var days := secs / SecondsPerDay;
    var sod := secs % SecondsPerDay;
    var (y, m, dd) := DateOfDay(days);
    DateTime(y, m, dd, sod / 3600, sod % 3600 / 60, sod % 60)
  }

  /** The seconds of a civil time counted from midnight. */
  function SecondOfDay(d: DateTime): int
  {
    d.hour * 3600 + d.minute * 60 + d.second
  }

  /** The instant of a civil time, regrouped as whole days plus seconds of the day. */
  lemma ToInstantSplit(d: DateTime)
    requires ValidDateTime(d)
    ensures ToInstant(d) == (DayNumber(d.year, d.month, d.day) * SecondsPerDay + SecondOfDay(d)) * MicrosPerSecond
    ensures 0 <= SecondOfDay(d) < SecondsPerDay
  {
    var n := DayNumber(d.year, d.month, d.day);
    var a := ((n * 24 + d.hour) * 60 + d.minute) * 60;
    assert a == n * SecondsPerDay + d.hour * 3600 + d.minute * 60;
    assert a * MicrosPerSecond + d.second * MicrosPerSecond == (a + d.second) * MicrosPerSecond;
  }

  /** A day number below the limit and a second of that day make a representable
      whole-second instant. */
  lemma InstantBound(n: int, sod: int)
    requires 0 <= n < DayLimit && 0 <= sod < SecondsPerDay
    ensures var t := (n * SecondsPerDay + sod) * MicrosPerSecond;
      ValidInstant(t) && t % MicrosPerSecond == 0 && t / MicrosPerSecond == n * SecondsPerDay + sod
  {
    var secs := n * SecondsPerDay + sod;
    assert secs < (n + 1) * SecondsPerDay;
    assert (n + 1) * SecondsPerDay <= DayLimit * SecondsPerDay;
    assert secs * MicrosPerSecond < DayLimit * SecondsPerDay * MicrosPerSecond;
  }

  /** Every valid civil time is a representable whole-second instant. */
  lemma ToInstantValid(d: DateTime)
    requires ValidDateTime(d)
    ensures ValidInstant(ToInstant(d))
    ensures ToInstant(d) % MicrosPerSecond == 0
  {
    DateOfDayNumber(d.year, d.month, d.day);
    ToInstantSplit(d);
    InstantBound(DayNumber(d.year, d.month, d.day), SecondOfDay(d));
  }

  /** Civil time -> instant -> civil time is the identity. */
  lemma DateTimeRoundTrip(d: DateTime)
    requires ValidDateTime(d)
    ensures ValidInstant(ToInstant(d)) && ToDateTime(ToInstant(d)) == d
  {
    var n := DayNumber(d.year, d.month, d.day);
    var sod := SecondOfDay(d);
    DateOfDayNumber(d.year, d.month, d.day);
    ToInstantSplit(d);
    InstantBound(n, sod);
    var t := ToInstant(d);
    var secs := t / MicrosPerSecond;
    assert secs == n * SecondsPerDay + sod;
    assert secs / SecondsPerDay == n && secs % SecondsPerDay == sod;
    assert DateOfDay(n) == (d.year, d.month, d.day);
    assert sod / 3600 == d.hour && sod % 3600 / 60 == d.minute && sod % 60 == d.second;
  }

  /** Instant -> civil time -> instant truncates to whole seconds. */
  lemma InstantRoundTrip(t: int)
    requires ValidInstant(t)
    ensures ToInstant(ToDateTime(t)) == WholeSeconds(t)
  {
    var secs := t / MicrosPerSecond;
    var days := secs / SecondsPerDay;
    var sod := secs % SecondsPerDay;
    assert secs == days * SecondsPerDay + sod;
    assert sod == (sod / 3600) * 3600 + (sod % 3600 / 60) * 60 + sod % 60;
    assert WholeSeconds(t) == secs * MicrosPerSecond;
  }

  /** Adding seconds to an instant (`now + timedelta(seconds=n)`): OverflowError,
      modelled as None, when the sum leaves the representable range. */
  function AddSeconds(t: int, n: int): (r: Option<int>)
    requires ValidInstant(t)
    ensures r.Some? <==> ValidInstant(t + n * MicrosPerSecond)
    ensures r.Some? ==> r.value - t == n * MicrosPerSecond
  {
    var s := t + n * MicrosPerSecond;
    if 0 <= s < InstantLimit then Some(s) else None
  }

  // ---------------------------------------------------------------------------
  // Text form `%Y-%m-%d %H:%M:%S`

  function DigitValue(c: char): int
  {
    c as int - '0' as int
  }

  predicate AllDigits(s: string)
  {
    forall k :: 0 <= k < |s| ==> '0' <= s[k] <= '9'
  }

  /** Zero-padded two-digit field (`%m`, `%d`, `%H`, `%M`, `%S`). */
  function Pad2(n: int): (r: string)
    requires 0 <= n < 100
    ensures |r| == 2 && AllDigits(r)
  {
    [DigitChar(n / 10), DigitChar(n % 10)]
  }

  /** Four-digit year field (`%Y`). */
  function Pad4(n: int): (r: string)
    requires 0 <= n < 10000
    ensures |r| == 4 && AllDigits(r)
  {
    [DigitChar(n / 1000), DigitChar(n / 100 % 10), DigitChar(n / 10 % 10), DigitChar(n % 10)]
  }

  function Number2(s: string): int
    requires |s| == 2
  {
    10 * DigitValue(s[0]) + DigitValue(s[1])
  }

  function Number4(s: string): int
    requires |s| == 4
  {
    1000 * DigitValue(s[0]) + 100 * DigitValue(s[1]) + 10 * DigitValue(s[2]) + DigitValue(s[3])
  }

  lemma Pad2RoundTrip(n: int)
    requires 0 <= n < 100
    ensures Number2(Pad2(n)) == n
  {
  }

  lemma Pad4RoundTrip(n: int)
    requires 0 <= n < 10000
    ensures Number4(Pad4(n)) == n
  {
    var r := Pad4(n);
    assert DigitValue(r[0]) == n / 1000;
    assert DigitValue(r[1]) == n / 100 % 10;
    assert DigitValue(r[2]) == n / 10 % 10;
    assert DigitValue(r[3]) == n % 10;
    assert n / 100 == 10 * (n / 1000) + n / 100 % 10;
    assert n / 10 == 10 * (n / 100) + n / 10 % 10;
    assert n == 10 * (n / 10) + n % 10;
  }

  lemma Number2RoundTrip(s: string)
    requires |s| == 2 && AllDigits(s)
    ensures 0 <= Number2(s) < 100 && Pad2(Number2(s)) == s
  {
  }

  lemma Number4RoundTrip(s: string)
    requires |s| == 4 && AllDigits(s)
    ensures 0 <= Number4(s) < 10000 && Pad4(Number4(s)) == s
  {
    var a, b, c, d := DigitValue(s[0]), DigitValue(s[1]), DigitValue(s[2]), DigitValue(s[3]);
    var n := Number4(s);
    assert n == 10 * (100 * a + 10 * b + c) + d;
    assert n % 10 == d && n / 10 == 100 * a + 10 * b + c;
    assert n / 10 == 10 * (10 * a + b) + c;
    assert n / 100 == 10 * a + b;
    assert n / 1000 == a;
    var r := Pad4(n);
    assert r[0] == s[0] && r[1] == s[1] && r[2] == s[2] && r[3] == s[3];
  }

  /** The nineteen characters `YYYY-mm-dd HH:MM:SS` of a civil time. */
  function Render(d: DateTime): (r: string)
    requires ValidDateTime(d)
    ensures |r| == 19
  {
    Pad4(d.year) + "-" + Pad2(d.month) + "-" + Pad2(d.day) + " "
      + Pad2(d.hour) + ":" + Pad2(d.minute) + ":" + Pad2(d.second)
  }

  datatype FormatError = YearBefore1900(year: int)

  /** `strftime('%Y-%m-%d %H:%M:%S')` as Python 2 performs it: ValueError for
      a year before 1900. */
  function Format(t: int): (r: Result<string, FormatError>)
    requires ValidInstant(t)
    ensures r.Err? <==> ToDateTime(t).year < StrftimeMinYear
    ensures r.Ok? ==> |r.value| == 19
  {
    var d := ToDateTime(t);
    if d.year < StrftimeMinYear then Err(YearBefore1900(d.year)) else Ok(Render(d))
  }

  /** The shape of a rendered timestamp: digits, with `-`, ` `, `:` at fixed places. */
  predicate WellShaped(s: string)
  {
    && |s| == 19
    && s[4] == '-' && s[7] == '-' && s[10] == ' ' && s[13] == ':' && s[16] == ':'
    && AllDigits(s[0..4]) && AllDigits(s[5..7]) && AllDigits(s[8..10])
    && AllDigits(s[11..13]) && AllDigits(s[14..16]) && AllDigits(s[17..19])
  }

  function Fields(s: string): DateTime
    requires |s| == 19
  {
    DateTime(Number4(s[0..4]), Number2(s[5..7]), Number2(s[8..10]),
             Number2(s[11..13]), Number2(s[14..16]), Number2(s[17..19]))
  }

  /** `datetime.strptime(s, '%Y-%m-%d %H:%M:%S')`: None where strptime raises
      ValueError (wrong shape, or fields that name no real date and time). */
  function Parse(s: string): (r: Option<int>)
    ensures r.Some? <==> WellShaped(s) && ValidDateTime(Fields(s))
    ensures r.Some? ==> ValidInstant(r.value) && r.value % MicrosPerSecond == 0
    ensures r.Some? ==> ToDateTime(r.value) == Fields(s)
  {
    if WellShaped(s) && ValidDateTime(Fields(s)) then
      DateTimeRoundTrip(Fields(s));
      ToInstantValid(Fields(s));
      Some(ToInstant(Fields(s)))
    else None
  }

  lemma RenderFields(d: DateTime)
    requires ValidDateTime(d)
    ensures WellShaped(Render(d)) && Fields(Render(d)) == d
  {
    var s := Render(d);
    assert s[0..4] == Pad4(d.year);
    assert s[5..7] == Pad2(d.month);
    assert s[8..10] == Pad2(d.day);
    assert s[11..13] == Pad2(d.hour);
    assert s[14..16] == Pad2(d.minute);
    assert s[17..19] == Pad2(d.second);
    Pad4RoundTrip(d.year);
    Pad2RoundTrip(d.month);
    Pad2RoundTrip(d.day);
    Pad2RoundTrip(d.hour);
    Pad2RoundTrip(d.minute);
    Pad2RoundTrip(d.second);
  }

  lemma FieldsRender(s: string)
    requires WellShaped(s) && ValidDateTime(Fields(s))
    ensures Render(Fields(s)) == s
  {
    var d := Fields(s);
    Number4RoundTrip(s[0..4]);
    Number2RoundTrip(s[5..7]);
    Number2RoundTrip(s[8..10]);
    Number2RoundTrip(s[11..13]);
    Number2RoundTrip(s[14..16]);
    Number2RoundTrip(s[17..19]);
    var r := Render(d);
    assert r[0..4] == s[0..4];
    assert r[5..7] == s[5..7];
    assert r[8..10] == s[8..10];
    assert r[11..13] == s[11..13];
    assert r[14..16] == s[14..16];
    assert r[17..19] == s[17..19];
    forall k | 0 <= k < 19 ensures r[k] == s[k] {
      if k < 4 { assert r[k] == r[0..4][k]; }
      else if 4 < k < 7 { assert r[k] == r[5..7][k - 5]; }
      else if 7 < k < 10 { assert r[k] == r[8..10][k - 8]; }
      else if 10 < k < 13 { assert r[k] == r[11..13][k - 11]; }
      else if 13 < k < 16 { assert r[k] == r[14..16][k - 14]; }
      else if 16 < k { assert r[k] == r[17..19][k - 17]; }
    }
  }

  /** Writing an expiry and reading it back gives the expiry truncated to whole
      seconds, whenever `strftime` accepts it. */
  lemma FormatThenParse(t: int)
    requires ValidInstant(t)
    ensures Format(t).Ok? ==> Parse(Format(t).value) == Some(WholeSeconds(t))
  {
    if Format(t).Ok? {
      var d := ToDateTime(t);
      RenderFields(d);
      InstantRoundTrip(t);
    }
  }

  /** Conversely, any text `strptime` accepts is exactly what `strftime`
      writes for the parsed instant, provided the year is 1900 or later. */
  lemma ParseThenFormat(s: string)
    requires Parse(s).Some?
    ensures ToDateTime(Parse(s).value).year >= StrftimeMinYear ==> Format(Parse(s).value) == Ok(s)
  {
    var d := Fields(s);
    DateTimeRoundTrip(d);
    FieldsRender(s);
  }
}

=== FILE: token.dfy ===
/** The OAuth2 token record `{refresh, access, expiry}` kept in the token file,
    and the rule `sendEmail` applies to it before each OAuth2 send: refresh the
    access token exactly when the stored expiry lies in the past. */
module Token {
  import opened Py
  import opened Timestamp

  /** The token file as `json.load` returns it; the expiry is still text. */
  datatype StoredToken = StoredToken(refresh: string, access: string, expiry: string)

  /** The record with its expiry parsed into an instant. */
  datatype TokenRecord = TokenRecord(refresh: string, access: string, expiry: int)

  /** The fields of the provider's answer to `oauth2.RefreshToken` that the
      script reads: `access_token` and `expires_in` (seconds). */
  datatype RefreshResponse = RefreshResponse(accessToken: string, expiresIn: int)

  /** What `oauth2.RefreshToken` gives back, as far as the script can read it:
      an answer carrying both fields, or one lacking the field read first.
      A revoked refresh token is answered with an error object that has no
      `access_token`. */
  datatype RefreshAnswer =
    | Granted(response: RefreshResponse)
    | LacksAccessToken                // KeyError at response['access_token']
    | LacksExpiresIn                  // KeyError at response['expires_in']

  datatype TokenError =
    | MalformedExpiry(text: string)   // strptime raises ValueError
    | ExpiryOverflow                  // now + timedelta raises OverflowError
    | ExpiryUnwritable(year: int)     // strftime raises ValueError (year < 1900)
    | AnswerLacks(key: string)        // KeyError reading the provider's answer

  /** Read the record: parse the stored expiry. */
  function Load(f: StoredToken): (r: Result<TokenRecord, TokenError>)
    ensures r.Err? <==> Parse(f.expiry).None?
    ensures r.Ok? ==> r.value.refresh == f.refresh && r.value.access == f.access
    ensures r.Ok? ==> ValidInstant(r.value.expiry) && r.value.expiry == WholeSeconds(r.value.expiry)
  {
    match Parse(f.expiry)
    case None => Err(MalformedExpiry(f.expiry))
    case Some(t) => Ok(TokenRecord(f.refresh, f.access, t))
  }

  /** Write the record: format the expiry with `DateEncoder`. */
  function Persist(tok: TokenRecord): (r: Result<StoredToken, TokenError>)
    requires ValidInstant(tok.expiry)
    ensures r.Err? <==> ToDateTime(tok.expiry).year < StrftimeMinYear
    ensures r.Ok? ==> r.value.refresh == tok.refresh && r.value.access == tok.access
  {
    match Format(tok.expiry)
    case Err(e) => Err(ExpiryUnwritable(e.year))
    case Ok(s) => Ok(StoredToken(tok.refresh, tok.access, s))
  }

  /** The access token has expired: `expiry < now`. An expiry equal to now
      has not. */
  predicate Expired(tok: TokenRecord, now: int)
  {
    tok.expiry < now
  }

  /** The in-memory update of the record: refresh when expired, keeping the
      refresh token, taking the new access token and setting the expiry
      `expires_in` seconds after `now`. */
  function Refresh(tok: TokenRecord, now: int, resp: RefreshResponse): (r: Result<TokenRecord, TokenError>)
    requires ValidInstant(now)
    ensures !Expired(tok, now) ==> r == Ok(tok)
    ensures Expired(tok, now) ==> (r.Err? <==> !ValidInstant(now + resp.expiresIn * MicrosPerSecond))
    ensures Expired(tok, now) && r.Ok? ==>
      && r.value.refresh == tok.refresh
      && r.value.access == resp.accessToken
      && r.value.expiry - now == resp.expiresIn * MicrosPerSecond
    ensures Expired(tok, now) && r.Ok? && resp.expiresIn > 0 ==> tok.expiry < now < r.value.expiry
  {
    if tok.expiry < now then
      match AddSeconds(now, resp.expiresIn)
      case None => Err(ExpiryOverflow)
      case Some(e) => Ok(TokenRecord(tok.refresh, resp.accessToken, e))
    else Ok(tok)
  }

  /** Writing a record to the token file and reading it back loses only the
      microseconds of its expiry. */
  lemma PersistThenLoad(tok: TokenRecord)
    requires ValidInstant(tok.expiry)
    ensures Persist(tok).Ok? ==> Load(Persist(tok).value) == Ok(tok.(expiry := WholeSeconds(tok.expiry)))
  {
    FormatThenParse(tok.expiry);
  }

  /** What the token step of `sendEmail` leaves behind: the access token to
      authenticate with, and the record written back to the file, if any. */
  datatype Freshened = Freshened(access: string, rewritten: Option<StoredToken>)

  /** Load the token file, refresh when expired and write the new record back. */
  function EnsureFresh(f: StoredToken, now: int, resp: RefreshResponse): (r: Result<Freshened, TokenError>)
    requires ValidInstant(now)
    ensures Load(f).Err? ==> r.Err?
    ensures r.Ok? ==> Load(f).Ok? && (r.value.rewritten.Some? <==> Expired(Load(f).value, now))
    ensures r.Ok? && r.value.rewritten.None? ==> r.value.access == f.access
    ensures r.Ok? && r.value.rewritten.Some? ==>
      (r.value.access == resp.accessToken
       && r.value.rewritten.value.refresh == f.refresh && r.value.rewritten.value.access == resp.accessToken)
  {
    match Load(f)
    case Err(e) => Err(e)
    case Ok(tok) =>
      if !Expired(tok, now) then Ok(Freshened(tok.access, None))
      else
        match Refresh(tok, now, resp)
        case Err(e) => Err(e)
        case Ok(renewed) =>
          match Persist(renewed)
          case Err(e) => Err(e)
          case Ok(out) => Ok(Freshened(renewed.access, Some(out)))
  }

  /** The file is rewritten if and only if the stored expiry lies before `now`
      (and the new one can be computed and written). Without a refresh the
      stored access token is used as is. A refresh fails only when the new
      expiry leaves the `datetime` range or falls before 1900. */
  lemma RewriteExactlyWhenExpired(f: StoredToken, now: int, resp: RefreshResponse)
    requires ValidInstant(now)
    requires Load(f).Ok?
    ensures EnsureFresh(f, now, resp).Ok? && EnsureFresh(f, now, resp).value.rewritten.Some?
      ==> Expired(Load(f).value, now)
    ensures Expired(Load(f).value, now) && EnsureFresh(f, now, resp).Ok?
      ==> EnsureFresh(f, now, resp).value.rewritten.Some?
    ensures Expired(Load(f).value, now) && EnsureFresh(f, now, resp).Err? ==>
      var e := now + resp.expiresIn * MicrosPerSecond;
      !ValidInstant(e) || ToDateTime(e).year < StrftimeMinYear
    ensures !Expired(Load(f).value, now) ==> EnsureFresh(f, now, resp) == Ok(Freshened(f.access, None))
  {
    if !Expired(Load(f).value, now) {
      UnexpiredUntouched(f, now, resp);
    } else if EnsureFresh(f, now, resp).Err? {
      ExpiredFailureCause(f, now, resp);
    }
  }

  lemma UnexpiredUntouched(f: StoredToken, now: int, resp: RefreshResponse)
    requires ValidInstant(now)
    requires Load(f).Ok? && !Expired(Load(f).value, now)
    ensures EnsureFresh(f, now, resp) == Ok(Freshened(f.access, None))
  {
  }

  lemma ExpiredFailureCause(f: StoredToken, now: int, resp: RefreshResponse)
    requires ValidInstant(now)
    requires Load(f).Ok? && Expired(Load(f).value, now) && EnsureFresh(f, now, resp).Err?
    ensures var e := now + resp.expiresIn * MicrosPerSecond;
      !ValidInstant(e) || ToDateTime(e).year < StrftimeMinYear
  {
    var tok := Load(f).value;
    ExpiredFailure(f, now, resp);
    if Refresh(tok, now, resp).Ok? {
      var renewed := Refresh(tok, now, resp).value;
      YearOfSameInstant(renewed.expiry, now + resp.expiresIn * MicrosPerSecond);
    }
  }

  /** An expired record fails to refresh at the update or at the write. */
  lemma ExpiredFailure(f: StoredToken, now: int, resp: RefreshResponse)
    requires ValidInstant(now)
    requires Load(f).Ok? && Expired(Load(f).value, now) && EnsureFresh(f, now, resp).Err?
    ensures var tok := Load(f).value;
      Refresh(tok, now, resp).Err? || Persist(Refresh(tok, now, resp).value).Err?
  {
  }

  lemma YearOfSameInstant(x: int, y: int)
    requires ValidInstant(x) && x == y
    ensures ValidInstant(y) && ToDateTime(x).year == ToDateTime(y).year
  {
  }

  /** After a refresh the file keeps the refresh token, holds the new access
      token, and reads back with an expiry `expires_in` seconds after `now`
      (to the second), which is later than both `now` and the old expiry when
      `expires_in` is positive. */
  lemma {:induction false} RefreshedRecord(f: StoredToken, now: int, resp: RefreshResponse)
    requires ValidInstant(now)
    requires EnsureFresh(f, now, resp).Ok? && EnsureFresh(f, now, resp).value.rewritten.Some?
    ensures var r := EnsureFresh(f, now, resp).value;
      var e := WholeSeconds(now + resp.expiresIn * MicrosPerSecond);
      && r.access == resp.accessToken
      && r.rewritten.value.refresh == f.refresh && r.rewritten.value.access == resp.accessToken
      && Load(r.rewritten.value) == Ok(TokenRecord(f.refresh, resp.accessToken, e))
      && (resp.expiresIn > 0 ==> Load(f).value.expiry < now < e)
  {
    RewrittenIsPersistedRefresh(f, now, resp);
    var renewed := Refresh(Load(f).value, now, resp).value;
    assert renewed == TokenRecord(f.refresh, resp.accessToken, now + resp.expiresIn * MicrosPerSecond);
    PersistedFieldsReadBack(renewed, f.refresh, resp.accessToken, renewed.expiry);
    ReadBackExpiry(Persist(renewed).value, renewed.expiry, f, now, resp);
    if resp.expiresIn > 0 {
      LaterByWholeSeconds(now, resp.expiresIn);
    }
  }

  /** The record `EnsureFresh` writes back is the loaded record, refreshed and
      persisted. */
  lemma RewrittenIsPersistedRefresh(f: StoredToken, now: int, resp: RefreshResponse)
    requires ValidInstant(now)
    requires EnsureFresh(f, now, resp).Ok? && EnsureFresh(f, now, resp).value.rewritten.Some?
    ensures var tok := Load(f).value;
      && Expired(tok, now) && Refresh(tok, now, resp).Ok? && Persist(Refresh(tok, now, resp).value).Ok?
      && EnsureFresh(f, now, resp).value.rewritten.value == Persist(Refresh(tok, now, resp).value).value
  {
  }

  /** `PersistThenLoad` for a record given field by field. */
  lemma PersistedFieldsReadBack(renewed: TokenRecord, refresh: string, access: string, t: int)
    requires renewed == TokenRecord(refresh, access, t) && ValidInstant(t)
    requires Persist(renewed).Ok?
    ensures Load(Persist(renewed).value) == Ok(TokenRecord(refresh, access, WholeSeconds(t)))
  {
    PersistThenLoad(renewed);
  }

  /** Restates a read-back expiry in terms of `now` and `expires_in`. */
  lemma ReadBackExpiry(out: StoredToken, x: int, f: StoredToken, now: int, resp: RefreshResponse)
    requires Load(out) == Ok(TokenRecord(f.refresh, resp.accessToken, WholeSeconds(x)))
    requires x == now + resp.expiresIn * MicrosPerSecond
    ensures Load(out) == Ok(TokenRecord(f.refresh, resp.accessToken, WholeSeconds(now + resp.expiresIn * MicrosPerSecond)))
  {
  }

  /** Adding at least one whole second and truncating still lands after the start. */
  lemma LaterByWholeSeconds(now: int, n: int)
    requires n > 0
    ensures WholeSeconds(now + n * MicrosPerSecond) > now
  {
    var x := now + n * MicrosPerSecond;
    assert n * MicrosPerSecond >= MicrosPerSecond;
    assert x % MicrosPerSecond < MicrosPerSecond;
  }

  /** Refreshing is idempotent: a record just written with a positive
      `expires_in` is not refreshed again at the same `now`, so a second send
      leaves the file alone. */
  lemma {:induction false} SecondSendDoesNotRewrite(f: StoredToken, now: int, resp: RefreshResponse, resp2: RefreshResponse)
    requires ValidInstant(now)
    requires resp.expiresIn > 0
    requires EnsureFresh(f, now, resp).Ok? && EnsureFresh(f, now, resp).value.rewritten.Some?
    ensures var out := EnsureFresh(f, now, resp).value.rewritten.value;
      EnsureFresh(out, now, resp2) == Ok(Freshened(resp.accessToken, None))
  {
    RefreshedRecord(f, now, resp);
  }
}

=== FILE: transport.dfy ===
/** Transport selection in `sendEmail`: the `if/elif/elif/else` chain that
    picks OAuth2 over Gmail, the ISP relay, credentialed smtplib, or the ssmtp
    subprocess. */
module Transport {
  import opened Py
  import opened Keys

  datatype Transport = OAuth2 | IspRelay | Smtplib | Ssmtp

  /** Everything the chain looks at: the `-i` flag, which optional modules
      imported, whether the token file exists, and three configuration
      sections. */
  datatype Situation = Situation(
    useISP: bool,
    useOAuth: bool,
    useSMTP: bool,
    tokenFileExists: bool,
    oauth2: Section,
    isp: Section,
    smtp: Section)

  /** The prerequisite of each transport, taken on its own. */
  predicate Viable(t: Transport, s: Situation)
  {
    match t
    case OAuth2 =>
      !s.useISP && s.useOAuth && ValidateKeys(s.oauth2, ["client_id", "client_secret"]) && s.tokenFileExists
    case IspRelay => s.useISP || ValidateKeys(s.isp, ["relay"])
    case Smtplib => s.useSMTP && ValidateKeys(s.smtp, ["server", "port"])
    case Ssmtp => true
  }

  /** The order in which the chain tries the transports. */
  const Priority: seq<Transport> := [OAuth2, IspRelay, Smtplib, Ssmtp]

  /** The first viable transport of `ts`, if any. */
  function FirstViable(ts: seq<Transport>, s: Situation): (r: Option<Transport>)
    ensures r.Some? ==> r.value in ts && Viable(r.value, s)
    ensures r.None? <==> forall i :: 0 <= i < |ts| ==> !Viable(ts[i], s)
    decreases |ts|
  {
    if |ts| == 0 then None
    else if Viable(ts[0], s) then Some(ts[0])
    else FirstViable(ts[1..], s)
  }

  /** The chain of the source, branch for branch. The chosen transport is
      viable and none ahead of it in priority order is. */
  function Select(s: Situation): (t: Transport)
    ensures Viable(t, s)
    ensures forall i :: 0 <= i < |Priority| && Priority[i] == t ==>
      forall j :: 0 <= j < i ==> !Viable(Priority[j], s)
  {
    if !s.useISP && s.useOAuth && ValidateKeys(s.oauth2, ["client_id", "client_secret"]) && s.tokenFileExists then
      OAuth2
    else if s.useISP || ValidateKeys(s.isp, ["relay"]) then
      IspRelay
    else if s.useSMTP && ValidateKeys(s.smtp, ["server", "port"]) then
      Smtplib
    else
      Ssmtp
  }

  /** The chain picks the first viable transport in priority order. Since
      ssmtp is always viable, some transport is always chosen. */
  lemma SelectIsFirstViable(s: Situation)
    ensures FirstViable(Priority, s) == Some(Select(s))
  {
  }

  /** OAuth2 is chosen exactly when ISP is not forced, the oauth2 module
      imported, `client_id` and `client_secret` are set and the token file
      exists. */
  lemma OAuth2Condition(s: Situation)
    ensures Select(s) == OAuth2 <==>
      (!s.useISP && s.useOAuth && s.tokenFileExists
       && "client_id" in s.oauth2 && s.oauth2["client_id"] != PyNone
       && "client_secret" in s.oauth2 && s.oauth2["client_secret"] != PyNone)
  {
    var ks := ["client_id", "client_secret"];
    assert ks[0] == "client_id" && ks[1] == "client_secret";
  }

  /** Forcing the ISP relay suppresses OAuth2 and always picks the relay. */
  lemma ForcedIspPicksRelay(s: Situation)
    requires s.useISP
    ensures Select(s) == IspRelay
  {
  }

  /** The relay is chosen exactly when OAuth2 was not, and either ISP is
      forced or `relay` is set. */
  lemma IspRelayCondition(s: Situation)
    ensures Select(s) == IspRelay <==>
      (!Viable(OAuth2, s) && (s.useISP || ("relay" in s.isp && s.isp["relay"] != PyNone)))
  {
    assert ["relay"][0] == "relay";
  }

  /** smtplib is chosen exactly when neither earlier branch applies, smtplib
      imported, and `server` and `port` are set. */
  lemma SmtplibCondition(s: Situation)
    ensures Select(s) == Smtplib <==>
      (!Viable(OAuth2, s) && !Viable(IspRelay, s) && s.useSMTP
       && "server" in s.smtp && s.smtp["server"] != PyNone
       && "port" in s.smtp && s.smtp["port"] != PyNone)
  {
    var ks := ["server", "port"];
    assert ks[0] == "server" && ks[1] == "port";
  }

  /** ssmtp is the unconditional fallback: chosen exactly when nothing else is viable. */
  lemma SsmtpIsFallback(s: Situation)
    ensures Select(s) == Ssmtp <==> (!Viable(OAuth2, s) && !Viable(IspRelay, s) && !Viable(Smtplib, s))
  {
  }

  /** With a usable relay and OAuth2 not viable, the choice does not depend on
      the smtp section or on whether smtplib imported. */
  lemma RelayIgnoresSmtp(s: Situation, smtp: Section, useSMTP: bool)
    requires !Viable(OAuth2, s) && "relay" in s.isp && s.isp["relay"] != PyNone
    ensures Select(s) == IspRelay
    ensures Select(s.(smtp := smtp, useSMTP := useSMTP)) == IspRelay
  {
    IspRelayCondition(s);
    IspRelayCondition(s.(smtp := smtp, useSMTP := useSMTP));
  }
}

=== FILE: wizard.dfy ===
/** `updateConfig`, the field-update rule of the configuration wizard: given the
    section, a key, the system default and the line the user typed, decide
    what is stored under the key. The prompt itself is I/O; the typed line is
    a parameter. */
module Wizard {
  import opened Py
  import opened Text

  const NoDefault: string := "No default available"

  /** The value shown in the prompt's `%s`: the existing value (a missing key
      first takes the system default), `No default available` for `None`, and
      for boolean fields `Yes` or `No` by the truthiness of that text. */
  function PromptDefault(obj: Section, key: string, sysDef: Value, castBool: bool): (r: string)
    ensures castBool ==> (r == "Yes" || r == "No")
    ensures castBool && key in obj ==> (r == "Yes" <==> obj[key] == PyNone || Truthy(obj[key]))
    ensures castBool && key !in obj ==> (r == "Yes" <==> sysDef == PyNone || Truthy(sysDef))
    ensures !castBool && key in obj && obj[key] != PyNone ==> r == ToStr(obj[key])
    ensures !castBool && key !in obj && sysDef != PyNone ==> r == ToStr(sysDef)
    ensures !castBool && (if key in obj then obj[key] else sysDef) == PyNone ==> r == NoDefault
  {
    var existing := if key in obj then obj[key] else sysDef;
    var shown := if existing == PyNone then PyStr(NoDefault) else existing;
    if castBool then (if Truthy(shown) then "Yes" else "No") else ToStr(shown)
  }

  /** The value stored under `key` once the user has answered `line`. */
  function UpdateConfig(obj: Section, key: string, sysDef: Value, castBool: bool, line: string): (r: Section)
    ensures r.Keys == obj.Keys + {key}
    ensures forall k :: k in obj && k != key ==> r[k] == obj[k]
    ensures IsBlank(line) ==> r[key] == (if key in obj then obj[key] else sysDef)
    ensures !IsBlank(line) && castBool ==> r[key] == PyBool('y' in line || 'Y' in line)
    ensures !IsBlank(line) && !castBool ==> r[key].PyStr? && r[key].s == Strip(line)
  {
    var seeded := if key in obj then obj else obj[key := sysDef];
    var answer := Strip(line);
    if |answer| > 0 then
      YesInStripped(line);
      YesTest(answer);
      seeded[key := if castBool then PyBool('y' in Lower(answer)) else PyStr(answer)]
    else seeded
  }

  /** Stripping keeps every `y` and `Y` of the line. */
  lemma YesInStripped(line: string)
    ensures ('y' in Strip(line) || 'Y' in Strip(line)) <==> ('y' in line || 'Y' in line)
  {
    StripKeeps(line, 'y');
    StripKeeps(line, 'Y');
  }

  /** A typed text value has no surrounding white space. */
  lemma StoredTextIsStripped(obj: Section, key: string, sysDef: Value, line: string)
    requires !IsBlank(line)
    ensures var v := UpdateConfig(obj, key, sysDef, false, line)[key];
      v.PyStr? && |v.s| > 0 && !IsSpace(v.s[0]) && !IsSpace(v.s[|v.s| - 1])
  {
  }

  /** Pressing Enter on a second run keeps what the first run stored. */
  lemma BlankRerunKeeps(obj: Section, key: string, sysDef: Value, sysDef2: Value, castBool: bool, line: string, blank: string)
    requires IsBlank(blank)
    ensures UpdateConfig(UpdateConfig(obj, key, sysDef, castBool, line), key, sysDef2, castBool, blank)
      == UpdateConfig(obj, key, sysDef, castBool, line)
  {
  }

  /** Answering the same line twice stores the same as answering it once. */
  lemma RepeatedAnswerIdempotent(obj: Section, key: string, sysDef: Value, castBool: bool, line: string)
    ensures UpdateConfig(UpdateConfig(obj, key, sysDef, castBool, line), key, sysDef, castBool, line)
      == UpdateConfig(obj, key, sysDef, castBool, line)
  {
  }
}
